=== FILE: README.md ===
# melo-webplayer in Dafny

A functional model of the decision logic of the Melo web-player plugin: two
generations of a player that turns a web-video URL into an audio stream with
the youtube-dl grabber, and two generations of a YouTube browser built on the
YouTube Data API v3.

- **Current player** (`WebplayerPlayer`, src/melo_webplayer_player.c): the
  best-audio loop over the formats `extract_info` reports, the worker queue
  drain in which only the newest request is served, the grabber update
  handshake (`updating` flag, one pending URL with last writer wins, version
  comparison, script-header stripping, commit or revert of the version after
  unzip), and the bus-message and request handlers.
- **Older player** (`PlayerWebplayer`, src/melo_player_webplayer.c): URI
  resolution from `--dump-json` output over `requested_formats` with root `url`
  fallback, play/prev/next, the `set_state` state machine, EOS and ERROR
  handling, seeking with its -1 answer, and the update guard.
- **Both selection loops side by side** (`SelectionCompare`): where they agree
  and the inputs on which they differ.
- **Current browser** (`YoutubeBrowser`, src/melo_youtube_browser.c): cover
  choice and its inverse `get_asset`, media-list and action request validation,
  item and action-id construction, and the action reply.
- **Older browser** (`BrowserYoutube`, src/melo_browser_youtube.c): search
  parameters, order-preserving item construction (prepend then reverse),
  `gen_tags`, the watch URL, and the value `action` answers.

Shared modules: `Wrappers` (Option), `Text` (prefix, `memchr`/`strrchr`
searches, `g_path_get_basename`), `Formats` (the format record and the C
integer conversions: `unsigned int` wrap-around, `gint` truncation, division
truncating toward zero), `YoutubeApi` (reply shapes, thumbnail priority, the
search URL arguments) and `Gst` (pipeline states).

Every external effect is a parameter: HTTP status codes and bodies, file
contents and whether a write succeeds, the unzip exit status, the grabber's
output, the playlist's next/previous entry, the library's favourite flag, and
the pipeline's seek and query answers. Calls the current player makes into
code outside the model (HTTP GETs, spawning unzip, `melo_player_eos`, seeks)
are appended to a `calls` log; the browsers return the request they would
issue or the effect they would ask of the playlist and library.

Behaviour of the code that differs from what its interfaces and log messages
suggest, which the model follows:

- A play request saved during an update is played only when unzip finishes.
  Every other exit ends the update and leaves the saved URL unplayed: a version
  or download status other than 200, a failed save, a failed unzip spawn, and
  the most common one, a version check that finds the local grabber up to
  date.
- The current player goes to STOPPED, not to an error state, on a pipeline
  error and when no stream is found; the older player goes to ERROR on a
  pipeline error and leaves the pipeline running.
- Neither selection loop looks at the video codec: there is no audio-only
  preference.
- The current player checks for a grabber update once, when it is created,
  right after creating its HTTP client (src/melo_webplayer_player.c:199-202);
  no other entry point starts a check, and one that is running refuses a
  second.
- A resolution in progress is not cancelled by a newer play request; the
  worker takes the newer request up after it.

## Model

| member | source | states |
|---|---|---|
| Formats.ToUInt32 | src/melo_webplayer_player.c:622 | the value an `unsigned int` holds: in [0, 2^32) and congruent to the input modulo 2^32 |
| Formats.ToInt32 | src/melo_player_webplayer.c:423 | the value a `gint` holds: in [-2^31, 2^31) and congruent to the input modulo 2^32 |
| Formats.TruncDiv | src/melo_player_webplayer.c:639 | C division, rounding toward zero for either sign of the dividend |
| Text.FirstIndex | src/melo_webplayer_player.c:308 | `memchr`: the first position holding the character, or none when no position does |
| Text.LastIndex | src/melo_youtube_browser.c:473 | `strrchr`: the last position holding the character, or none when no position does |
| Text.Basename | src/melo_player_webplayer.c:497 | `g_path_get_basename`: "." for the empty path, "/" exactly for a non-empty path of slashes, otherwise the last component of the path with trailing slashes dropped: a suffix of it, without '/', preceded by '/' or by nothing |
| Text.BasenameOfJoin | src/melo_player_webplayer.c:497 | the base name of directory + "/" + a plain name is that name |
| WebplayerPlayer.ScanFindsLastBest | src/melo_webplayer_player.c:595-633 | the loop finds a URL exactly when some format has a codec other than "none", a bitrate and a URL; the one found has the highest unsigned bitrate and no later such format ties it |
| WebplayerPlayer.ChosenAtIsUnique | src/melo_webplayer_player.c:606-633 | the selection rule singles out one position |
| WebplayerPlayer.DrainFrom | src/melo_webplayer_player.c:525-528 | every popped item replaces the held one, so the last item is kept |
| WebplayerPlayer.Drain | src/melo_webplayer_player.c:524-530 | the worker handles the newest queue item; the sentinel, and only the sentinel, means no URL |
| WebplayerPlayer.WorkerStep | src/melo_webplayer_player.c:518-651 | the queue ends empty; stop exits; a sentinel never leads to extraction; a resolved URI sets the source and the pipeline to PLAYING and changes nothing else; no URI gives STOPPED with "video not found" and changes nothing else |
| WebplayerPlayer.WorkerPlaysNewestBest | src/melo_webplayer_player.c:587-650 | for a newest URL the worker starts playback exactly when extraction gives a format list with a candidate, and then plays the last best candidate; otherwise it reports not found |
| WebplayerPlayer.Abort | src/melo_webplayer_player.c:291-295 | an early exit clears `updating`, wakes the worker with the sentinel and changes nothing else, the saved URL included |
| WebplayerPlayer.Play | src/melo_webplayer_player.c:656-676 | always true and stops the pipeline; while updating the URL replaces the saved one and nothing is queued, otherwise it is queued; nothing else changes |
| WebplayerPlayer.UpdateGrabber | src/melo_webplayer_player.c:387-399 | no change without a client or while updating; otherwise sets `updating` and fetches the version file |
| WebplayerPlayer.VersionReply | src/melo_webplayer_player.c:342-385 | the grabber is downloaded exactly when the status is 200 and the local version file does not start with the remote version; the update stays running exactly when it is downloaded; a 200 reply becomes the held version; nothing else changes (saved URL, version file, grabber file, status, pipeline) |
| WebplayerPlayer.StripHeader | src/melo_webplayer_player.c:303-313 | what is saved is a suffix of the payload; with a leading '#' and a newline the removed part is exactly the first line; otherwise the payload is saved unchanged |
| WebplayerPlayer.StripHeaderRoundTrip | src/melo_webplayer_player.c:303-313 | stripping a header line put in front of a body gives back the body; a body not starting with '#' is kept as is |
| WebplayerPlayer.HeaderWindowAsWritten | src/melo_webplayer_player.c:303-316 | the offset and length passed to the save call as written; the offset stays within the payload |
| WebplayerPlayer.HeaderWindowOverruns | src/melo_webplayer_player.c:308-316 | for every payload with a header line the written window starts where the stripped payload starts but is one byte longer, so it ends one byte past the payload |
| WebplayerPlayer.HeaderWindowExample | src/melo_webplayer_player.c:308-316 | "#\nA" gives the window (2, 2) over a 3-byte payload, where "A" alone was meant |
| WebplayerPlayer.UpdateReply | src/melo_webplayer_player.c:282-340 | unzip is spawned exactly when the status is 200, the save succeeds and the spawn succeeds; the stripped payload is saved on status 200; every failure ends the update and wakes the worker; nothing else changes (versions, saved URL, pipeline, status, source URI) |
| WebplayerPlayer.Settle | src/melo_webplayer_player.c:264-279 | the update ends and the saved URL is cleared; a saved URL is played once (queued, pipeline stopped), otherwise the sentinel is queued; nothing else changes (versions, files, status, calls) |
| WebplayerPlayer.UnzipDone | src/melo_webplayer_player.c:212-280 | exit status 0 or 1 with a successful write persists the held version; any other status reloads the version from the file (none when there is no file); a failed wait or a failed write changes neither; in every case the update ends and the saved URL or the sentinel is queued, and the pipeline is stopped exactly when a saved URL is played; nothing else changes (grabber file, status, source URI, calls) |
| WebplayerPlayer.PlayDuringUpdateKeepsNewest | src/melo_webplayer_player.c:664-670 | two requests during an update leave the second saved and the queue untouched |
| WebplayerPlayer.UpdateServesNewestPlayOnce | src/melo_webplayer_player.c:212-399 | a full successful update with two requests during it persists the remote version, saves the stripped grabber, issues version GET, grabber GET and unzip in that order, and queues only the newer request, once |
| WebplayerPlayer.SecondCheckDownloadsNothing | src/melo_webplayer_player.c:367-381 | once the remote version is on disk, the same version check ends the update without a download |
| WebplayerPlayer.UpToDateCheckKeepsSavedUrl | src/melo_webplayer_player.c:378-381 | a URL played during a version check that finds the grabber current stays saved and unqueued; only the sentinel is queued and nothing is downloaded |
| WebplayerPlayer.LongerLocalVersionCountsAsCurrent | src/melo_webplayer_player.c:368-369 | only strlen(remote) bytes are compared: a longer local version with the remote as prefix counts as current, a shorter one does not |
| WebplayerPlayer.QueryMs | src/melo_webplayer_player.c:411-419 | a failed query gives 0; a non-negative time in ns gives the whole number of ms it contains |
| WebplayerPlayer.OnBus | src/melo_webplayer_player.c:401-480 | STREAM_START gives PLAYING with no stream state; BUFFERING under 100 is buffering, otherwise not, with the percent; ERROR stops the pipeline and gives STOPPED with the message; EOS stops the pipeline and signals end of stream; TAG replaces the tags; duration changes report position and duration in ms; each message changes only the status fields it reports, the pipeline (ERROR, EOS) and the call log (EOS); no message touches the update state, versions, files or source URI |
| WebplayerPlayer.SetState | src/melo_webplayer_player.c:678-691 | always true; PLAYING and PAUSED give the pipeline states of the same name, every other state NULL; nothing else changes |
| WebplayerPlayer.SetStateLastWins | src/melo_webplayer_player.c:678-691 | two requests in a row act as the second alone, and every state other than PLAYING and PAUSED acts as STOPPED |
| WebplayerPlayer.ErrorOverridesSetState | src/melo_webplayer_player.c:457-469 | after any requested state a pipeline error leaves the pipeline NULL and the player STOPPED with the message |
| WebplayerPlayer.LastReportWins | src/melo_webplayer_player.c:409-456 | of two buffering, tag or time reports in a row only the second shows |
| WebplayerPlayer.StreamStartEndsBuffering | src/melo_webplayer_player.c:437-456 | after any buffering report, stream start or a 100% report leaves no buffering state |
| WebplayerPlayer.SetPosition | src/melo_webplayer_player.c:693-703 | answers the seek result; exactly one seek is issued, to exactly `position` × 10^6 ns, which reads back as the requested position |
| WebplayerPlayer.GetPosition | src/melo_webplayer_player.c:705-715 | 0 when the query fails; otherwise an unsigned value that, for times in range, is the whole number of ms |
| WebplayerPlayer.PositionRoundTrip | src/melo_webplayer_player.c:693-715 | seeking to a position and reading the position back gives it again |
| PlayerWebplayer.ScanPicksFirstBest | src/melo_player_webplayer.c:405-434 | the loop picks a format exactly when some format not marked "none" has a positive bitrate (missing bitrate read as 0); the one picked has the highest bitrate and no earlier such format ties it |
| PlayerWebplayer.GetUri | src/melo_player_webplayer.c:363-456 | no URI when the grabber fails or its output is not a JSON object; the root `url` without `requested_formats` or when nothing is picked; otherwise the picked format's `url` |
| PlayerWebplayer.Add | src/melo_player_webplayer.c:458-469 | true exactly when there is a playlist, which then gets the entry as not current, under the name given (possibly none); otherwise no change |
| PlayerWebplayer.Play | src/melo_player_webplayer.c:471-516 | always true; a fresh PLAYING status named by the given name or the base name of the path, empty tags, the resolved URI on the source, pipeline PLAYING; the playlist gets a current entry only when inserting and a playlist exists |
| PlayerWebplayer.Skip | src/melo_player_webplayer.c:518-556 | prev and next: true exactly when there is a playlist and it gives an entry, which is then played without insertion under its base name; otherwise no change |
| PlayerWebplayer.SetState | src/melo_player_webplayer.c:558-584 | the answer is always the new status state; NONE stops the pipeline with a fresh NONE status; PLAYING, PAUSED and STOPPED map to PLAYING, PAUSED and NULL; any other target keeps the current state and changes nothing |
| PlayerWebplayer.GetPos | src/melo_player_webplayer.c:625-640 | the duration of the status, and the position in whole ms, 0 when the query fails |
| PlayerWebplayer.MsToNsToMs | src/melo_player_webplayer.c:590 | ms to ns and back is exact for either sign |
| PlayerWebplayer.SetPos | src/melo_player_webplayer.c:586-599 | the seek goes to a whole number of ns that is exactly `pos` ms and reads back as `pos` for any `gint`; the answer is -1 when the seek is rejected, otherwise the position read back, never negative for times in range |
| PlayerWebplayer.SeekRoundTrip | src/melo_player_webplayer.c:586-640 | an accepted seek read back at the time it was sent to answers the requested position |
| PlayerWebplayer.OnBus | src/melo_player_webplayer.c:257-332 | ERROR gives the ERROR state with the message and nothing else; EOS plays the next entry when there is one and otherwise stops the pipeline with STOPPED; TAG merges tags, new values replacing old ones; a duration change stores only the duration in whole ms, and a failed query changes nothing |
| PlayerWebplayer.AddThenPlayInsert | src/melo_player_webplayer.c:458-516 | an added entry and then an inserted play appear in the playlist in that order, only the play as current |
| PlayerWebplayer.AddKeepsPlayback | src/melo_player_webplayer.c:458-469 | adding never changes what a later play does, apart from the playlist |
| PlayerWebplayer.PlayLastWins | src/melo_player_webplayer.c:471-516 | two plays in a row act as the second alone: status, tags, URL and URI all come from it |
| PlayerWebplayer.SetStateIdempotent | src/melo_player_webplayer.c:558-584 | requesting a state twice is requesting it once; an unknown target after any request keeps it and answers it |
| PlayerWebplayer.PauseThenResume | src/melo_player_webplayer.c:570-578 | pausing then resuming leaves the media as it was, with pipeline and state PLAYING |
| PlayerWebplayer.EosNeverErrors | src/melo_player_webplayer.c:301-308 | end of stream never leads to the ERROR state |
| PlayerWebplayer.UpdateGrabber | src/melo_player_webplayer.c:238-255 | false and no change while updating; otherwise marks the update started and returns no defined value |
| PlayerWebplayer.SecondUpdateRefused | src/melo_player_webplayer.c:238-255 | once an update is started a second request answers FALSE and changes nothing |
| YoutubeApi.FirstPresent | src/melo_youtube_browser.c:109-120 | the first size of the priority list present in the thumbnails, or none when none is present |
| YoutubeApi.ThumbUrl | src/melo_youtube_browser.c:97-123 | no URL without a `thumbnails` object |
| YoutubeBrowser.GetAsset | src/melo_youtube_browser.c:581-585 | the asset prefix followed by exactly the id |
| YoutubeBrowser.GetCover | src/melo_youtube_browser.c:91-130 | an id exactly when the thumbnail chosen by medium, high, default, standard, maxres has a URL under the asset prefix, and `get_asset` of that id is that URL |
| YoutubeBrowser.CoverOfAsset | src/melo_youtube_browser.c:122-130 | a chosen thumbnail at `get_asset(id)` gives back `id` |
| YoutubeBrowser.MediumBeatsHigh | src/melo_youtube_browser.c:109-112 | with a medium thumbnail present, its URL is the one used |
| YoutubeBrowser.MediaListQuery | src/melo_youtube_browser.c:350-397 | a request is made exactly for a query starting with "search:" and searches for the rest of it; the count becomes exactly 25 when above and is kept otherwise; "&pageToken=" is always emitted with the token or ""; the order is the first sort or "relevance" |
| YoutubeBrowser.MediaListQueryStable | src/melo_youtube_browser.c:359-361 | asking again with the count used gives the same search: the clamp is idempotent |
| YoutubeBrowser.MediaListQueryRoundTrip | src/melo_youtube_browser.c:359-390 | a request built from a search text, a count within the limit, a token and a sort gives those back as the URL arguments |
| YoutubeBrowser.Offered | src/melo_youtube_browser.c:205-212 | the action types a list of action ids names, no more and no fewer |
| YoutubeBrowser.ListItem | src/melo_youtube_browser.c:274-324 | an entry without `id` or `snippet` stays empty; otherwise a media item with the video id, the title as name and title, the library's favourite flag, and a cover exactly when `get_cover` gives a non-empty id |
| YoutubeBrowser.FavoriteActions | src/melo_youtube_browser.c:300-311 | every item offers play and add; it offers removal from favourites exactly when it is a favourite and adding exactly when it is not |
| YoutubeBrowser.ListResponse | src/melo_youtube_browser.c:216-324 | a response exactly when the HTTP request succeeded; one item per array element in array order, the saved order and both page tokens |
| YoutubeBrowser.DoAction | src/melo_youtube_browser.c:508-544 | a videos request exactly for PLAY, ADD, SET_FAVORITE or UNSET_FAVORITE on a path starting with "search:", for the video id after the prefix |
| YoutubeBrowser.SplitLast | src/melo_youtube_browser.c:471-475 | path + "/" + media is the URL and the media holds no '/'; without a '/' the path is the whole URL and there is no media |
| YoutubeBrowser.SplitWatchUrl | src/melo_youtube_browser.c:433-475 | a watch URL splits into the site and "watch?v=" followed by the id |
| YoutubeBrowser.ActionReply | src/melo_youtube_browser.c:399-506 | nothing unless the first reply item has an id; each action type gets only its own effect on the watch URL of that id; the name is the snippet title, or the id without a snippet (then no tags); with a snippet the tags are its title and its medium-first cover; favourite changes use the URL split at its last '/' |
| YoutubeBrowser.FavoriteFilesWatchPage | src/melo_youtube_browser.c:466-495 | a favourite change for an id without '/' files the video under the site path with the media name "watch?v=" followed by the id |
| BrowserYoutube.OrderOf | src/melo_browser_youtube.c:246-263 | TITLE, DATE, RATING and PLAY_COUNT give title, date, rating and viewCount, and those only; every other sort gives relevance |
| BrowserYoutube.SearchArgs | src/melo_browser_youtube.c:234-274 | the count is kept when in 1..50 and otherwise becomes 50; "&pageToken=" and the token are emitted exactly for a non-empty token; the order follows the sort |
| BrowserYoutube.SearchArgsStable | src/melo_browser_youtube.c:234-237 | searching again with the count used gives the same arguments: the clamp is idempotent |
| BrowserYoutube.SearchArgsToken | src/melo_browser_youtube.c:239-244 | a non-empty token is passed through; the empty token and no token give the same search |
| BrowserYoutube.GenTags | src/melo_browser_youtube.c:167-211 | the title only with the title flag; a cover URL exactly when the cover flag is set and the thumbnail chosen by standard, high, medium, default, maxres has a URL |
| BrowserYoutube.StandardBeatsMedium | src/melo_browser_youtube.c:189-191 | with a standard thumbnail present, its URL is the one used |
| BrowserYoutube.MakeItem | src/melo_browser_youtube.c:317-330 | the video id, the title or "Unknown" as name, add and play actions, and tags exactly when a tags mode is set, those `gen_tags` makes from the snippet |
| BrowserYoutube.PrependedIsReversedKept | src/melo_browser_youtube.c:303-334 | prepending each kept item yields the kept items reversed in front of what was there |
| BrowserYoutube.SearchItems | src/melo_browser_youtube.c:300-337 | prepend then reverse yields the items of the complete entries in array order |
| BrowserYoutube.SearchKeepsOrder | src/melo_browser_youtube.c:332-337 | two complete entries give their two items, first entry first |
| BrowserYoutube.SearchSkipsIncomplete | src/melo_browser_youtube.c:309-315 | an entry without `id` or `snippet` adds no item |
| BrowserYoutube.GetUrl | src/melo_browser_youtube.c:345-349 | the watch prefix followed by exactly the path |
| BrowserYoutube.ActionAsWritten | src/melo_browser_youtube.c:444-455 | ADD calls add and answers its result; PLAY calls play and answers false; everything else answers false |
| BrowserYoutube.PlayAnswersFalse | src/melo_browser_youtube.c:450-454 | PLAY answers false even when the player started the video |
| BrowserYoutube.DoAction | src/melo_browser_youtube.c:444-455 | ADD and PLAY each call their player function once and answer its result; everything else answers false |
| BrowserYoutube.ActionDiffersOnlyOnPlay | src/melo_browser_youtube.c:444-455 | the written and the corrected switch differ exactly on a successful PLAY |
| SelectionCompare.AgreeOnDistinctBitrates | src/melo_webplayer_player.c:606-633 | on complete formats with distinct positive 32-bit bitrates both loops choose the same format |
| SelectionCompare.TieBreaksDiffer | src/melo_player_webplayer.c:430-433 | on equal bitrates the current loop takes the last format and the older one the first |
| SelectionCompare.ZeroBitrate | src/melo_player_webplayer.c:408-433 | a bitrate of 0 can be chosen by the current loop and never by the older one |
| SelectionCompare.MissingCodec | src/melo_player_webplayer.c:420-427 | a format without `acodec` is skipped by the current loop and accepted by the older one |
| SelectionCompare.PickedFormatWithoutUrl | src/melo_player_webplayer.c:436-443 | the older loop can pick a format without `url` and then resolves to nothing, without falling back to the root `url` |
| SelectionCompare.NegativeBitrateWinsInCurrent | src/melo_webplayer_player.c:620-623 | for every format list whose candidates have 32-bit bitrates, one negative bitrate means the current loop chooses a format with a negative bitrate; the older loop only ever picks a bitrate that is positive as a `gint` |
| SelectionCompare.NegativeOutranks | src/melo_webplayer_player.c:622 | a negative 32-bit bitrate read as unsigned exceeds every non-negative 32-bit one |
| SelectionCompare.OlderPicksPositive | src/melo_player_webplayer.c:430-433 | the older loop's pick always has a bitrate that is positive as a `gint` |
| SelectionCompare.NegativeBitrateExample | src/melo_webplayer_player.c:620-623 | -1 then 160: the current loop takes -1, the older loop 160 |
| SelectionCompare.ThreeFormats | src/melo_webplayer_player.c:606-633 | a "none" codec then 64 and 128 kbit/s audio: both loops pick 128 |

## Left out

- GStreamer plumbing: pipeline and element creation, `pad_added_cb` and `pad_added_handler`, bus watch registration. The pipeline is an abstract target state; the bus messages carry the query answers they need.
- Embedded Python: importing `youtube_dl`, instantiating `YoutubeDL` and calling `extract_info` are one parameter (`grabberReady` and `extract`); the format list is a sequence of records with optional fields.
- HTTP, files and subprocesses (libsoup, `unzip`, `wget`, `chmod`, `--dump-json`, `--update`): their outcomes are parameters. The older player's update thread (src/melo_player_webplayer.c:179-236) is only a sequence of such commands and is not modelled; only the guard that starts it is.
- Threads, `GAsyncQueue` and `GMutex`: the queue is a sequence and one worker iteration is a function; interleavings are not modelled.
- Protobuf packing and unpacking, `handle_request` dispatch, allocation, and the internals of `melo_library`, `melo_playlist`, `melo_tags` and `melo_http_client`: foreign code. The sort menu and action names of the media list are constants of the response and are not modelled.
- The older browser's `get_json_object`, `get_video_tags`, `get_tags`, `get_cover` and `get_info`: HTTP fetches and delegation without decisions of their own; `action` takes the player's answers as parameters. Its list `count` from `pageInfo` and page tokens are copied through and not modelled.
- Object construction and finalisation (`*_init`, `*_class_init`, `*_finalize`, `*_new`), `melo_player_webplayer_set_bin_path`, `get_state`, `get_name` and `get_status`: wiring and getters.
- src/melo_browser_webplayer.c, the headers, src/melo_webplayer.c and src/melo_webplayer_plugin.c: delegation and registration only.
- Strings are sequences of characters; NUL bytes inside a string, encodings and JSON values of unexpected types are not modelled (in the current player a present `abr` of another type, a Python `None` say, goes through `PyLong_AsLong` and answers -1; src/melo_webplayer_player.c:621-623) (a non-object array element behaves like one without members; a missing `items` array like an empty one).
- Formats.Format, WebplayerPlayer.ScanFindsLastBest, PlayerWebplayer.ScanPicksFirstBest: only integral `abr` values are modelled. youtube-dl often reports a fractional bitrate. The older loop reads it with `json_object_get_int_member` (src/melo_player_webplayer.c:423), which truncates the number. The current loop reads it with `PyLong_AsLong` (src/melo_webplayer_player.c:622): on Python 3.10 and later that call fails on a float and answers -1, stored as 0xFFFFFFFF, which beats every integral bitrate; older Pythons truncate. A fractional bitrate is therefore the model's value after that conversion (its truncation, or -1 on newer Pythons), chosen by the caller.
- WebplayerPlayer.UpdateReply: saves the corrected payload StripHeader(data). The code as written passes a window one byte longer whenever a header is stripped (see Findings and WebplayerPlayer.HeaderWindowAsWritten); the bytes past the download are not modelled.
- PlayerWebplayer.Add, PlayerWebplayer.Play: the `tags` argument is handed to `melo_playlist_add` unchanged (src/melo_player_webplayer.c:466, 509) and is not recorded in `PlaylistAdd`; the playlist's handling of tags is foreign code.
- Tags are a map from names to values; the conversion from GStreamer tag lists is foreign code.
- Undefined behaviour is modelled by its evident outcome, not replicated: the uninitialised `t` in `gen_tags` (src/melo_browser_youtube.c:187-203) is read as "no thumbnail"; the `memcmp` over-read in `version_cb` (src/melo_webplayer_player.c:369) is read as a prefix comparison with the NUL-terminated file contents; the missing return of the older `update_grabber` (src/melo_player_webplayer.c:238-255) is an undefined value (None); `g_free` on the static sentinel (src/melo_webplayer_player.c:526) has no effect in the model. One case is left out instead: an extract_info result without "formats" hands NULL to `PyList_Check` (src/melo_webplayer_player.c:598-599), a NULL dereference that crashes the worker; `WebplayerPlayer.Info` has no value for it, and its `Extracted(None)` stands only for a present "formats" member that is not a list.
- YoutubeApi.ThumbUrl: states only when no URL can come out; the priority choice itself is stated by FirstPresent, GetCover and GenTags.

## Findings

| source | as written | input that shows it | evidently intended | confidence | as-written member | corrected member |
|---|---|---|---|---|---|---|
| src/melo_webplayer_player.c:308-316 | after finding the header's newline at offset n, `size` is reduced by n while `data` moves n + 1 bytes, so the save call reads one byte past the downloaded payload | the payload "#\nA": the window starts at offset 2 with length 2, covering 4 bytes of a 3-byte buffer | save exactly the bytes after the first newline | high (not executed) | WebplayerPlayer.HeaderWindowAsWritten | WebplayerPlayer.StripHeader |
| src/melo_browser_youtube.c:450-454 | the PLAY case has no `break` and falls into `default`, so `action` answers FALSE after starting the video | action PLAY with a player that accepts the video | answer the result of `melo_player_play` | high (not executed) | BrowserYoutube.ActionAsWritten | BrowserYoutube.DoAction |

=== FILE: browser_youtube.dfy ===
/** The older YouTube browser (src/melo_browser_youtube.c): search parameter
    handling, order-preserving item construction, tag generation with its own
    thumbnail priority, the watch URL of a path, and the value `action`
    answers. HTTP replies and the player's answers are parameters. */
module BrowserYoutube {
  import opened Wrappers
  import opened Text
  import opened YoutubeApi

  const WATCH_URL: string := "http://www.youtube.com/watch?v="
  const DEFAULT_COUNT: nat := 50
  const UNKNOWN_NAME: string := "Unknown"

  /** standard, then high, medium, default, maxres. */
  const THUMB_PRIORITY: seq<Size> := [Standard, High, Medium, Default, Maxres]

  /** MeloSort values the search maps; `OtherSort` is any other value. */
  datatype Sort = SortTitle | SortDate | SortRating | SortPlayCount | SortRelevant | OtherSort(code: int)

  /** The MELO_TAGS_FIELDS_TITLE and _COVER bits of a tags field mask. */
  datatype TagsFields = TagsFields(title: bool, cover: bool)

  /** MeloBrowserSearchParams: `count` is a guint, `withTags` is false for
      MELO_BROWSER_TAGS_MODE_NONE. */
  datatype SearchParams = SearchParams(count: nat, token: Option<string>, sort: Sort, withTags: bool, fields: TagsFields)

  /** The `order` URL parameter for a sort. */
  function OrderOf(s: Sort): (order: string)
    ensures s == SortTitle <==> order == "title"
    ensures s == SortDate <==> order == "date"
    ensures s == SortRating <==> order == "rating"
    ensures s == SortPlayCount <==> order == "viewCount"
    ensures !(s.SortTitle? || s.SortDate? || s.SortRating? || s.SortPlayCount?) <==> order == "relevance"
  {
    match s
    case SortTitle => "title"
    case SortDate => "date"
    case SortRating => "rating"
    case SortPlayCount => "viewCount"
    case _ => "relevance"
  }

  /** The search URL arguments of melo_browser_youtube_search. */
  function SearchArgs(input: string, params: SearchParams): (q: SearchQuery)
    ensures q.q == input
    ensures 0 < q.maxResults <= DEFAULT_COUNT
    ensures q.maxResults == params.count <==> 0 < params.count <= DEFAULT_COUNT
    ensures params.count == 0 || params.count > DEFAULT_COUNT ==> q.maxResults == DEFAULT_COUNT
    ensures q.pageTokenKey == PAGE_TOKEN_KEY <==> params.token.Some? && params.token.value != ""
    ensures q.pageTokenKey != PAGE_TOKEN_KEY ==> q.pageTokenKey == "" && q.pageToken == ""
    ensures q.pageTokenKey == PAGE_TOKEN_KEY ==> q.pageToken == params.token.value
    ensures q.order == OrderOf(params.sort)
  {
    var count := if params.count == 0 || params.count > DEFAULT_COUNT then DEFAULT_COUNT else params.count;
    var withToken := params.token.Some? && params.token.value != "";
    SearchQuery(input, count,
      if withToken then PAGE_TOKEN_KEY else "",
      if withToken then params.token.value else "",
      OrderOf(params.sort))
  }

  /** Searching again with the count the first search used gives the same
      URL arguments: the clamp is idempotent. */
  lemma SearchArgsStable(input: string, params: SearchParams)
    ensures SearchArgs(input, params.(count := SearchArgs(input, params).maxResults)) == SearchArgs(input, params)
  {
  }

  /** A non-empty token is passed through unchanged, and leaving it out or
      giving the empty one are the same search. */
  lemma SearchArgsToken(input: string, params: SearchParams, token: string)
    ensures token != "" ==> SearchArgs(input, params.(token := Some(token))).pageToken == token
    ensures SearchArgs(input, params.(token := Some(""))) == SearchArgs(input, params.(token := None))
  {
  }

  /** MeloTags as gen_tags fills them. */
  datatype Tags = Tags(title: Option<string>, coverUrl: Option<string>)

  /** melo_browser_youtube_gen_tags: the title when asked for, and the URL of
      the thumbnail chosen by THUMB_PRIORITY when it exists and a cover is
      asked for. */
  function GenTags(snip: Snippet, fields: TagsFields): (t: Tags)
    ensures t.title == (if fields.title then snip.title else None)
    ensures t.coverUrl.Some? <==> fields.cover && ThumbUrl(snip, THUMB_PRIORITY).Some?
    ensures t.coverUrl.Some? ==> t.coverUrl == ThumbUrl(snip, THUMB_PRIORITY)
  {
    var thumb := ThumbUrl(snip, THUMB_PRIORITY);
    Tags(if fields.title then snip.title else None, if fields.cover then thumb else None)
  }

  /** With both standard and medium thumbnails present, the standard one is
      used (the current browser prefers medium). */
  lemma StandardBeatsMedium(snip: Snippet)
    requires snip.thumbnails.Some? && Standard in snip.thumbnails.value
    ensures ThumbUrl(snip, THUMB_PRIORITY) == snip.thumbnails.value[Standard].url
  {
  }

  /** The item actions MELO_BROWSER_ITEM_ACTION_FIELDS_ADD and _PLAY. */
  datatype ItemAction = AddAction | PlayAction

  /** A MeloBrowserItem of type media. */
  datatype Item = Item(id: Option<string>, name: string, actions: set<ItemAction>, tags: Option<Tags>)

  /** The item built for an entry that has both `id` and `snippet`. */
  function MakeItem(ref: VideoRef, snip: Snippet, params: SearchParams): (item: Item)
    ensures item.id == ref.videoId
    ensures item.name == (if snip.title.Some? then snip.title.value else UNKNOWN_NAME)
    ensures item.actions == {AddAction, PlayAction}
    ensures item.tags.Some? <==> params.withTags
    ensures item.tags.Some? ==> item.tags.value == GenTags(snip, params.fields)
  {
    Item(ref.videoId,
      if snip.title.Some? then snip.title.value else UNKNOWN_NAME,
      {AddAction, PlayAction},
      if params.withTags then Some(GenTags(snip, params.fields)) else None)
  }

  /** Reference definition: the items of the entries that have `id` and
      `snippet`, in array order. */
  function Kept(entries: seq<SearchEntry>, params: SearchParams): (items: seq<Item>)
    ensures |items| <= |entries|
    decreases |entries|
  {
    if |entries| == 0 then []
    else
      var rest := Kept(entries[1..], params);
      var e := entries[0];
      if e.id.Some? && e.snippet.Some? then [MakeItem(e.id.value, e.snippet.value, params)] + rest
      else rest
  }

  /** The loop as written: each kept entry is prepended to the list. */
  function Prepended(acc: seq<Item>, entries: seq<SearchEntry>, params: SearchParams): seq<Item>
    decreases |entries|
  {
    if |entries| == 0 then acc
    else
      var e := entries[0];
      var acc' := if e.id.Some? && e.snippet.Some? then [MakeItem(e.id.value, e.snippet.value, params)] + acc else acc;
      Prepended(acc', entries[1..], params)
  }

  function Reverse<T>(s: seq<T>): (r: seq<T>)
    ensures |r| == |s|
    ensures forall i :: 0 <= i < |s| ==> r[i] == s[|s| - 1 - i]
  {
    if |s| == 0 then [] else Reverse(s[1..]) + [s[0]]
  }

  lemma ReverseAppend<T>(a: seq<T>, b: seq<T>)
    ensures Reverse(a + b) == Reverse(b) + Reverse(a)
  {
    assert |Reverse(a + b)| == |Reverse(b) + Reverse(a)|;
  }

  lemma ReverseReverse<T>(s: seq<T>)
    ensures Reverse(Reverse(s)) == s
  {
  }

  lemma {:induction false} PrependedIsReversedKept(acc: seq<Item>, entries: seq<SearchEntry>, params: SearchParams)
    ensures Prepended(acc, entries, params) == Reverse(Kept(entries, params)) + acc
    decreases |entries|
  {
    if |entries| > 0 {
      var e := entries[0];
      var rest := Kept(entries[1..], params);
      if e.id.Some? && e.snippet.Some? {
        var item := MakeItem(e.id.value, e.snippet.value, params);
        PrependedIsReversedKept([item] + acc, entries[1..], params);
        ReverseAppend([item], rest);
        assert Reverse([item]) == [item];
      } else {
        PrependedIsReversedKept(acc, entries[1..], params);
      }
    }
  }

  /** The item list of melo_browser_youtube_search: prepend, then reverse. */
  function SearchItems(entries: seq<SearchEntry>, params: SearchParams): (items: seq<Item>)
    ensures items == Kept(entries, params)
  {
    PrependedIsReversedKept([], entries, params);
    ReverseReverse(Kept(entries, params));
    Reverse(Prepended([], entries, params))
  }

  /** Every item keeps the relative order of its entry: the items are exactly
      the kept entries' items, first entry first. */
  lemma SearchKeepsOrder(e1: SearchEntry, e2: SearchEntry, params: SearchParams)
    requires e1.id.Some? && e1.snippet.Some? && e2.id.Some? && e2.snippet.Some?
    ensures SearchItems([e1, e2], params) ==
              [MakeItem(e1.id.value, e1.snippet.value, params), MakeItem(e2.id.value, e2.snippet.value, params)]
  {
    assert [e1, e2][1..] == [e2];
    assert [e2][1..] == [];
    assert Kept([e2], params) == [MakeItem(e2.id.value, e2.snippet.value, params)];
  }

  /** Entries without `id` or `snippet` are dropped. */
  lemma SearchSkipsIncomplete(e: SearchEntry, entries: seq<SearchEntry>, params: SearchParams)
    requires e.id.None? || e.snippet.None?
    ensures SearchItems([e] + entries, params) == SearchItems(entries, params)
  {
    assert ([e] + entries)[1..] == entries;
  }

  /** melo_browser_youtube_get_url. */
  function GetUrl(path: string): (url: string)
    ensures HasPrefix(url, WATCH_URL) && url[|WATCH_URL|..] == path
  {
    WATCH_URL + path
  }

  /** The actions `action` dispatches on. */
  datatype ItemRequest = ActionAdd | ActionPlay | OtherAction(code: int)

  /** The value `action` returns and whether it called the player. */
  datatype ActionResult = ActionResult(ret: bool, calledAdd: bool, calledPlay: bool)

  /** melo_browser_youtube_action as written: ADD answers the player's add
      result; PLAY calls play and then falls through to `default`, which
      answers FALSE; anything else answers FALSE. */
  function ActionAsWritten(a: ItemRequest, addOk: bool, playOk: bool): (r: ActionResult)
    ensures r.calledAdd <==> a == ActionAdd
    ensures r.calledPlay <==> a == ActionPlay
    ensures r.ret <==> a == ActionAdd && addOk
  {
    match a
    case ActionAdd => ActionResult(addOk, true, false)
    case ActionPlay => ActionResult(false, false, true)
    case OtherAction(_) => ActionResult(false, false, false)
  }

  /** PLAY answers FALSE even when the player started the video. */
  lemma PlayAnswersFalse()
    ensures !ActionAsWritten(ActionPlay, true, true).ret
  {
  }

  /** The evidently intended `action`: PLAY answers the player's play result. */
  function DoAction(a: ItemRequest, addOk: bool, playOk: bool): (r: ActionResult)
    ensures r.calledAdd <==> a == ActionAdd
    ensures r.calledPlay <==> a == ActionPlay
    ensures r.ret <==> (a == ActionAdd && addOk) || (a == ActionPlay && playOk)
  {
    match a
    case ActionAdd => ActionResult(addOk, true, false)
    case ActionPlay => ActionResult(playOk, false, true)
    case OtherAction(_) => ActionResult(false, false, false)
  }

  /** The two agree everywhere except on the answer to a successful PLAY. */
  lemma ActionDiffersOnlyOnPlay(a: ItemRequest, addOk: bool, playOk: bool)
    ensures ActionAsWritten(a, addOk, playOk) != DoAction(a, addOk, playOk) <==> a == ActionPlay && playOk
  {
  }
}

=== FILE: formats.dfy ===
/** The stream-format records the extraction tool reports, and the C integer
    conversions both players apply to their numeric fields. */
module Formats {
  import opened Wrappers

  /** One entry of the tool's `formats` / `requested_formats` array. A member
      that is absent is None; so is, for the older player, one of the wrong JSON
      type, which its json-glib accessors turn into NULL as well. The current
      player reads a present member whatever its type; a present member of an
      unexpected type is not modelled for it. */
  datatype Format = Format(acodec: Option<string>, abr: Option<int>, url: Option<string>)

  const UINT32_RANGE: int := 0x1_0000_0000
  const INT32_RANGE: int := 0x1_0000_0000
  const INT32_MAX: int := 0x7fff_ffff

  /** Conversion of a C integer to `unsigned int`: reduction modulo 2^32. */
  function ToUInt32(x: int): (r: nat)
    ensures r < UINT32_RANGE
    ensures 0 <= x < UINT32_RANGE ==> r == x
    ensures (r - x) % UINT32_RANGE == 0
  {
    x % UINT32_RANGE
  }

  /** Conversion of a C integer to 32-bit `int`/`gint`, two's complement. */
  function ToInt32(x: int): (r: int)
    ensures -INT32_MAX - 1 <= r <= INT32_MAX
    ensures -INT32_MAX - 1 <= x <= INT32_MAX ==> r == x
    ensures (r - x) % INT32_RANGE == 0
  {
    (x + INT32_MAX + 1) % INT32_RANGE - (INT32_MAX + 1)
  }

  /** C's `/` on signed integers, which truncates toward zero. */
  function TruncDiv(a: int, b: int): (q: int)
    requires b > 0
    ensures a >= 0 ==> q >= 0 && q * b <= a < (q + 1) * b
    ensures a < 0 ==> q <= 0 && (q - 1) * b < a <= q * b
  {
    if a >= 0 then
      EuclidBounds(a, b);
      a / b
    else
      EuclidBounds(-a, b);
      var m := (-a) / b;
      assert (-m) * b == -(m * b) && (-m - 1) * b == -((m + 1) * b);
      -m
  }

  /** The quotient of a non-negative dividend brackets it between two
      consecutive multiples of the divisor. */
  lemma EuclidBounds(a: int, b: int)
    requires a >= 0 && b > 0
    ensures a / b >= 0 && (a / b) * b <= a < (a / b + 1) * b
  {
    var q, r := a / b, a % b;
    assert a == q * b + r && 0 <= r < b;
    assert (q + 1) * b == q * b + b;
  }

  /** Nanoseconds per millisecond: GStreamer time is in ns, player positions in ms. */
  const NS_PER_MS: int := 1_000_000
}

=== FILE: gst.dfy ===
/** The one piece of the GStreamer pipeline both players drive: its target state. */
module Gst {

  /** GST_STATE_NULL, _READY, _PAUSED, _PLAYING. */
  datatype GstState = Null | Ready | Paused | Playing
}

=== FILE: player_webplayer.dfy ===
/** The older web player (src/melo_player_webplayer.c): stream URI resolution
    from the grabber's `--dump-json` output, play/prev/next, the set_state
    state machine, end-of-stream and error handling, seeking, and the guard of
    the grabber update.

    The grabber run, the playlist's answers and the pipeline's seek and query
    results are parameters. */
module PlayerWebplayer {
  import opened Wrappers
  import opened Text
  import opened Formats
  import Gst

  /* ---------------------------------------------------------------------- */
  /* URI resolution                                                           */
  /* ---------------------------------------------------------------------- */

  /** The format loop skips only an explicit "none" codec; a missing codec
      is accepted. */
  predicate Eligible(f: Format) {
    f.acodec != Some("none")
  }

  /** The bitrate as the loop reads it: json_object_get_int_member stored in
      a `gint`, 0 when the member is missing. */
  function AbrOf(f: Format): int {
    if f.abr.Some? then ToInt32(f.abr.value) else 0
  }

  /** The loop's locals: `best_abr` and the chosen format `o`. */
  datatype Pick = Pick(bestAbr: int, chosen: Option<Format>)

  /** One iteration: an eligible format replaces the best only with a
      strictly greater bitrate. */
  function Consider(p: Pick, f: Format): Pick {
    if !Eligible(f) then p
    else if AbrOf(f) > p.bestAbr then Pick(AbrOf(f), Some(f))
    else p
  }

  /** The loop over `requested_formats`, starting from bitrate 0 and no format. */
  function ScanRequested(fs: seq<Format>): Pick
  {
    if |fs| == 0 then Pick(0, None)
    else Consider(ScanRequested(fs[..|fs| - 1]), fs[|fs| - 1])
  }

  /** `fs[k]` is eligible with a positive bitrate, no eligible format beats
      it, and every earlier eligible format is strictly below it: among
      equal bitrates the first one wins. */
  ghost predicate PickedAt(fs: seq<Format>, k: int, p: Pick) {
    && 0 <= k < |fs|
    && Eligible(fs[k])
    && AbrOf(fs[k]) > 0
    && p.chosen == Some(fs[k])
    && p.bestAbr == AbrOf(fs[k])
    && (forall j :: 0 <= j < |fs| && Eligible(fs[j]) ==> AbrOf(fs[j]) <= AbrOf(fs[k]))
    && (forall j :: 0 <= j < k && Eligible(fs[j]) ==> AbrOf(fs[j]) < AbrOf(fs[k]))
  }

  /** The loop picks a format exactly when some eligible format has a
      positive bitrate, and the one it picks is the first eligible format of
      highest bitrate. */
  lemma {:induction false} ScanPicksFirstBest(fs: seq<Format>)
    ensures ScanRequested(fs).chosen.None? ==> ScanRequested(fs).bestAbr == 0
    ensures ScanRequested(fs).chosen.None? <==> forall j :: 0 <= j < |fs| && Eligible(fs[j]) ==> AbrOf(fs[j]) <= 0
    ensures ScanRequested(fs).chosen.Some? ==> exists k :: PickedAt(fs, k, ScanRequested(fs))
  {
    if |fs| > 0 {
      var n := |fs| - 1;
      var init := fs[..n];
      var f := fs[n];
      ScanPicksFirstBest(init);
      var p := ScanRequested(init);
      assert forall j :: 0 <= j < n ==> init[j] == fs[j];
      if !Eligible(f) || AbrOf(f) <= p.bestAbr {
        assert ScanRequested(fs) == p;
        if p.chosen.Some? {
          var k :| PickedAt(init, k, p);
          assert PickedAt(fs, k, p);
        }
      } else {
        var r := ScanRequested(fs);
        assert r == Pick(AbrOf(f), Some(f));
        if p.chosen.Some? {
          var k :| PickedAt(init, k, p);
          assert forall j :: 0 <= j < n && Eligible(fs[j]) ==> AbrOf(fs[j]) <= p.bestAbr;
        }
        assert PickedAt(fs, n, r);
      }
    }
  }

  /** The root object of the grabber's JSON: its `url` member and its
      `requested_formats` array, when present. */
  datatype DumpJson = DumpJson(url: Option<string>, requestedFormats: Option<seq<Format>>)

  /** The outcome of running `youtube-dl --dump-json <path>`. */
  datatype ToolRun =
    | SpawnFailed
    | NoOutput
    | Unparsable
    | NotAnObject
    | Parsed(root: DumpJson)

  /** melo_player_webplayer_get_uri: the `url` of the picked requested format,
      or of the root object when none is picked or there is no
      `requested_formats`; NULL when the grabber fails or its output does not
      parse into an object. */
  function GetUri(run: ToolRun): (uri: Option<string>)
    ensures !run.Parsed? ==> uri.None?
    ensures run.Parsed? && run.root.requestedFormats.None? ==> uri == run.root.url
    ensures run.Parsed? && run.root.requestedFormats.Some? ==>
              var fs := run.root.requestedFormats.value;
              || ((forall j :: 0 <= j < |fs| && Eligible(fs[j]) ==> AbrOf(fs[j]) <= 0) && uri == run.root.url)
              || (exists k :: PickedAt(fs, k, ScanRequested(fs)) && uri == fs[k].url)
  {
    match run
    case Parsed(root) =>
      if root.requestedFormats.Some? then
        var fs := root.requestedFormats.value;
        ScanPicksFirstBest(fs);
        match ScanRequested(fs).chosen
        case Some(o) => o.url
        case None => root.url
      else root.url
    case _ => None
  }

  /* ---------------------------------------------------------------------- */
  /* Player state                                                             */
  /* ---------------------------------------------------------------------- */

  /** MeloPlayerState of the older player core. */
  datatype State =
    | NoneState | Loading | Buffering | Playing
    | PausedLoading | PausedBuffering | Paused | Stopped | Error

  /** MeloPlayerStatus: the fields this player sets. */
  datatype Status = Status(
    state: State,
    name: Option<string>,
    error: Option<string>,
    duration: int,
    tags: Option<map<string, string>>)

  /** melo_player_status_new(state, name). */
  function NewStatus(state: State, name: Option<string>): Status {
    Status(state, name, None, 0, None)
  }

  /** One melo_playlist_add call: name (None for the NULL a browser may
      pass), path, and whether it was inserted as the current entry. */
  datatype PlaylistAdd = PlaylistAdd(name: Option<string>, path: string, current: bool)

  datatype Player = Player(
    pipeline: Gst.GstState,
    status: Status,
    url: Option<string>,               // the last path given to play
    uri: Option<string>,               // its resolved stream URI
    srcUri: Option<string>,            // "uri" property of the source element
    tagList: map<string, string>,      // merged GStreamer tags
    hasPlaylist: bool,
    added: seq<PlaylistAdd>,
    updating: bool)

  /* ---------------------------------------------------------------------- */
  /* Control                                                                  */
  /* ---------------------------------------------------------------------- */

  /** melo_player_webplayer_add: append to the playlist when there is one. */
  function Add(p: Player, path: string, name: Option<string>): (r: (bool, Player))
    ensures r.0 <==> p.hasPlaylist
    ensures r.0 ==> r.1 == p.(added := p.added + [PlaylistAdd(name, path, false)])
    ensures !r.0 ==> r.1 == p
  {
    if !p.hasPlaylist then (false, p)
    else (true, p.(added := p.added + [PlaylistAdd(name, path, false)]))
  }

  /** melo_player_webplayer_play: resolve `path` with the grabber (its run
      is `run`), replace the status with a PLAYING one named `name` or the
      base name of `path`, reset the tags, point the source at the resolved
      URI and set the pipeline PLAYING. Inserts into the playlist when asked
      and there is one. Always answers TRUE, even when nothing resolved. */
  function Play(p: Player, path: string, name: Option<string>, insert: bool, run: ToolRun): (r: (bool, Player))
    ensures r.0
    ensures r.1.status == NewStatus(Playing, Some(if name.Some? then name.value else Basename(path)))
    ensures r.1.tagList == map[]
    ensures r.1.url == Some(path) && r.1.uri == GetUri(run) && r.1.srcUri == GetUri(run)
    ensures r.1.pipeline == Gst.Playing
    ensures insert && p.hasPlaylist ==> r.1.added == p.added + [PlaylistAdd(r.1.status.name, path, true)]
    ensures !(insert && p.hasPlaylist) ==> r.1.added == p.added
    ensures r.1.hasPlaylist == p.hasPlaylist && r.1.updating == p.updating
  {
    var n := if name.Some? then name.value else Basename(path);
    var uri := GetUri(run);
    var started := p.(
      pipeline := Gst.Playing,
      status := NewStatus(Playing, Some(n)),
      tagList := map[],
      url := Some(path),
      uri := uri,
      srcUri := uri);
    if insert && p.hasPlaylist then (true, started.(added := started.added + [PlaylistAdd(Some(n), path, true)]))
    else (true, started)
  }

  /** melo_player_webplayer_prev and _next: play the entry the playlist
      returns (`entry`, resolved by `run`) without inserting it; FALSE and no
      change when there is no playlist or no such entry. */
  function Skip(p: Player, entry: Option<string>, run: ToolRun): (r: (bool, Player))
    ensures r.0 <==> p.hasPlaylist && entry.Some?
    ensures !r.0 ==> r.1 == p
    ensures r.0 ==> r.1 == Play(p, entry.value, None, false, run).1
    ensures r.0 ==> r.1.status.name == Some(Basename(entry.value)) && r.1.added == p.added
  {
    if !p.hasPlaylist then (false, p)
    else match entry
      case None => (false, p)
      case Some(path) => Play(p, path, None, false, run)
  }

  /** The pipeline target for the three states set_state maps. */
  function PipelineFor(s: State): Gst.GstState
    requires s == Playing || s == Paused || s == Stopped
  {
    match s
    case Playing => Gst.Playing
    case Paused => Gst.Paused
    case Stopped => Gst.Null
  }

  /** melo_player_webplayer_set_state. */
  function SetState(p: Player, target: State): (r: (State, Player))
    ensures r.0 == r.1.status.state
    ensures target == NoneState ==> r.1 == p.(pipeline := Gst.Null, status := NewStatus(NoneState, None))
    ensures target == Playing || target == Paused || target == Stopped ==>
              r.0 == target && r.1 == p.(pipeline := PipelineFor(target), status := p.status.(state := target))
    ensures target != NoneState && target != Playing && target != Paused && target != Stopped ==>
              r.0 == p.status.state && r.1 == p
  {
    if target == NoneState then
      (NoneState, p.(pipeline := Gst.Null, status := NewStatus(NoneState, None)))
    else if target == Playing || target == Paused || target == Stopped then
      (target, p.(pipeline := PipelineFor(target), status := p.status.(state := target)))
    else
      (p.status.state, p.(status := p.status.(state := p.status.state)))
  }

  /** melo_player_webplayer_get_pos: the position in ms (0 when the query
      fails), and the status duration. */
  function GetPos(p: Player, query: Option<int>): (r: (int, int))
    ensures r.1 == p.status.duration
    ensures query.None? ==> r.0 == 0
    ensures query.Some? && 0 <= query.value <= INT32_MAX * NS_PER_MS ==>
              r.0 >= 0 && r.0 * NS_PER_MS <= query.value < (r.0 + 1) * NS_PER_MS
  {
    (ToInt32(TruncDiv(query.GetOr(0), NS_PER_MS)), p.status.duration)
  }

  /** Converting whole milliseconds to nanoseconds and back is exact, for
      either sign. */
  lemma MsToNsToMs(ms: int)
    ensures TruncDiv(ms * NS_PER_MS, NS_PER_MS) == ms
  {
    if ms < 0 {
      assert -(ms * NS_PER_MS) == (-ms) * NS_PER_MS;
      assert ((-ms) * NS_PER_MS) / NS_PER_MS == -ms;
    }
  }

  /** melo_player_webplayer_set_pos: the seek target in ns (`r.1`), and the
      answer (`r.0`): -1 when the pipeline rejects the seek, otherwise the
      position read back by `query`. */
  function SetPos(p: Player, pos: int, accepted: bool, query: Option<int>): (r: (int, int))
    ensures TruncDiv(r.1, NS_PER_MS) == pos && r.1 % NS_PER_MS == 0
    ensures -INT32_MAX - 1 <= pos <= INT32_MAX ==> GetPos(p, Some(r.1)).0 == pos
    ensures !accepted ==> r.0 == -1
    ensures accepted ==> r.0 == GetPos(p, query).0
    ensures accepted && (query.None? || 0 <= query.value <= INT32_MAX * NS_PER_MS) ==> r.0 >= 0
  {
    MsToNsToMs(pos);
    var target := pos * NS_PER_MS;
    (if !accepted then -1 else GetPos(p, query).0, target)
  }

  /** A seek the pipeline accepts, read back at the time it was sent to,
      answers the requested position. */
  lemma SeekRoundTrip(p: Player, pos: int)
    requires -INT32_MAX - 1 <= pos <= INT32_MAX
    ensures var target := SetPos(p, pos, true, None).1;
            SetPos(p, pos, true, Some(target)) == (pos, target)
  {
  }

  /* ---------------------------------------------------------------------- */
  /* Bus messages                                                             */
  /* ---------------------------------------------------------------------- */

  datatype BusMessage =
    | DurationChanged(duration: Option<int>)
    | AsyncDone(duration: Option<int>)
    | Tag(tags: map<string, string>)
    | Eos(entry: Option<string>, run: ToolRun)   // the playlist's next entry and its grabber run
    | ErrorMessage(message: string)
    | OtherMessage

  /** bus_call. Tags merge in GST_TAG_MERGE_REPLACE mode: a new value
      replaces an old one for the same tag. */
  function OnBus(p: Player, m: BusMessage): (r: Player)
    ensures m.ErrorMessage? ==> r == p.(status := p.status.(state := State.Error, error := Some(m.message)))
    ensures m.Eos? && !(p.hasPlaylist && m.entry.Some?) ==>
              r == p.(pipeline := Gst.Null, status := p.status.(state := Stopped))
    ensures m.Eos? && p.hasPlaylist && m.entry.Some? ==>
              r == Play(p, m.entry.value, None, false, m.run).1
    ensures m.Eos? ==> r.status.state == Stopped || r.status.state == Playing
    ensures m.Tag? ==> r.tagList.Keys == p.tagList.Keys + m.tags.Keys
    ensures m.Tag? ==> (forall k :: k in m.tags ==> r.tagList[k] == m.tags[k])
    ensures m.Tag? ==> (forall k :: k in p.tagList && k !in m.tags ==> r.tagList[k] == p.tagList[k])
    ensures m.Tag? ==> r.status.tags == Some(r.tagList)
    ensures (m.DurationChanged? || m.AsyncDone?) && m.duration.None? ==> r == p
    ensures (m.DurationChanged? || m.AsyncDone?) && m.duration.Some? ==>
              r == p.(status := p.status.(duration := r.status.duration))
    ensures (m.DurationChanged? || m.AsyncDone?) && m.duration.Some? && 0 <= m.duration.value <= INT32_MAX * NS_PER_MS ==>
              r.status.duration >= 0 && r.status.duration * NS_PER_MS <= m.duration.value < (r.status.duration + 1) * NS_PER_MS
    ensures m.OtherMessage? ==> r == p
  {
    match m
    case DurationChanged(d) =>
      if d.Some? then p.(status := p.status.(duration := ToInt32(TruncDiv(d.value, NS_PER_MS)))) else p
    case AsyncDone(d) =>
      if d.Some? then p.(status := p.status.(duration := ToInt32(TruncDiv(d.value, NS_PER_MS)))) else p
    case Tag(t) =>
      var merged := p.tagList + t;
      p.(tagList := merged, status := p.status.(tags := Some(merged)))
    case Eos(entry, run) =>
      var next := Skip(p, entry, run);
      if next.0 then next.1
      else p.(pipeline := Gst.Null, status := p.status.(state := Stopped))
    case ErrorMessage(msg) => p.(status := p.status.(state := State.Error, error := Some(msg)))
    case OtherMessage => p
  }

  /** Entries added to the playlist keep their order: an added entry, then
      an inserted play, appear in that order, and only the play is current. */
  lemma AddThenPlayInsert(p: Player, a: string, na: Option<string>, b: string, run: ToolRun)
    requires p.hasPlaylist
    ensures Play(Add(p, a, na).1, b, None, true, run).1.added ==
              p.added + [PlaylistAdd(na, a, false), PlaylistAdd(Some(Basename(b)), b, true)]
  {
  }

  /** Adding never touches playback: playing after an add is playing
      without it, apart from the playlist. */
  lemma AddKeepsPlayback(p: Player, a: string, na: Option<string>, b: string, name: Option<string>, insert: bool, run: ToolRun)
    ensures Play(Add(p, a, na).1, b, name, insert, run).1.(added := p.added) ==
            Play(p, b, name, insert, run).1.(added := p.added)
  {
  }

  /** Play replaces everything about the previous media: the last play alone
      decides the status, tags, URL and URI. */
  lemma PlayLastWins(p: Player, a: string, na: Option<string>, ra: ToolRun, b: string, nb: Option<string>, rb: ToolRun)
    ensures Play(Play(p, a, na, false, ra).1, b, nb, false, rb) == Play(p, b, nb, false, rb)
  {
  }

  /** Requesting the same state twice is requesting it once, and an
      unknown target after any request changes nothing. */
  lemma SetStateIdempotent(p: Player, s: State, t: State)
    requires t != NoneState && t != Playing && t != Paused && t != Stopped
    ensures SetState(SetState(p, s).1, s) == SetState(p, s)
    ensures SetState(SetState(p, s).1, t) == (SetState(p, s).1.status.state, SetState(p, s).1)
  {
  }

  /** Pausing then resuming leaves the media as it was, playing. */
  lemma PauseThenResume(p: Player)
    ensures SetState(SetState(p, Paused).1, Playing).1 ==
            p.(pipeline := Gst.Playing, status := p.status.(state := Playing))
  {
  }

  /** End of stream never leads to the ERROR state. */
  lemma EosNeverErrors(p: Player, entry: Option<string>, run: ToolRun)
    ensures OnBus(p, Eos(entry, run)).status.state != State.Error
  {
  }

  /* ---------------------------------------------------------------------- */
  /* Grabber update guard                                                     */
  /* ---------------------------------------------------------------------- */

  /** melo_player_webplayer_update_grabber: FALSE when an update is already
      running; otherwise it marks the update started and falls off the end of
      the function without a return statement, so no value is defined
      (None). The update thread itself is not modelled. */
  function UpdateGrabber(p: Player): (r: (Option<bool>, Player))
    ensures p.updating ==> r == (Some(false), p)
    ensures !p.updating ==> r.0.None? && r.1 == p.(updating := true)
  {
    if p.updating then (Some(false), p)
    else (None, p.(updating := true))
  }

  /** Once an update has been started, a second request is refused and
      changes nothing. */
  lemma SecondUpdateRefused(p: Player)
    ensures var started := UpdateGrabber(p).1;
            started.updating && UpdateGrabber(started) == (Some(false), started)
  {
  }
}

=== FILE: selection_compare.dfy ===
/** The two format-selection loops side by side: the current player's
    (greater-or-equal, last tie wins, every field required) and the older
    player's (strictly greater from 0, first tie wins, missing codec
    accepted, missing bitrate read as 0). */
module SelectionCompare {
  import opened Wrappers
  import opened Formats
  import Current = WebplayerPlayer
  import Older = PlayerWebplayer

  /** Every format has a real audio codec, a URL and a positive 32-bit bitrate. */
  predicate Complete(fs: seq<Format>) {
    forall j :: 0 <= j < |fs| ==>
      && fs[j].acodec.Some? && fs[j].acodec.value != "none" && fs[j].url.Some?
      && fs[j].abr.Some? && 0 < fs[j].abr.value <= INT32_MAX
  }

  /** No two formats share a bitrate. */
  predicate DistinctBitrates(fs: seq<Format>) {
    forall i, j :: 0 <= i < j < |fs| ==> fs[i].abr != fs[j].abr
  }

  /** On complete formats with distinct bitrates both loops choose the same
      format, the one of highest bitrate. */
  lemma AgreeOnDistinctBitrates(fs: seq<Format>)
    requires |fs| > 0 && Complete(fs) && DistinctBitrates(fs)
    ensures Older.ScanRequested(fs).chosen.Some?
    ensures Current.ScanFormats(fs).uri == Older.ScanRequested(fs).chosen.value.url
  {
    Current.ScanFindsLastBest(fs);
    Older.ScanPicksFirstBest(fs);
    assert Current.Candidate(fs[0]);
    assert Older.Eligible(fs[0]) && Older.AbrOf(fs[0]) > 0;
    var k1 :| Current.ChosenAt(fs, k1, Current.ScanFormats(fs));
    var k2 :| Older.PickedAt(fs, k2, Older.ScanRequested(fs));
    assert Current.Bitrate(fs[k1]) == Older.AbrOf(fs[k1]) == fs[k1].abr.value;
    assert Current.Bitrate(fs[k2]) == Older.AbrOf(fs[k2]) == fs[k2].abr.value;
    assert Current.Candidate(fs[k2]) && Older.Eligible(fs[k1]);
    assert fs[k1].abr == fs[k2].abr;
    assert k1 == k2;
  }

  /** Equal bitrates: the current loop takes the last, the older the first. */
  lemma TieBreaksDiffer(u1: string, u2: string)
    ensures var fs := [Format(Some("opus"), Some(128), Some(u1)), Format(Some("opus"), Some(128), Some(u2))];
            && Current.ScanFormats(fs).uri == Some(u2)
            && Older.ScanRequested(fs).chosen == Some(fs[0])
  {
    var fs := [Format(Some("opus"), Some(128), Some(u1)), Format(Some("opus"), Some(128), Some(u2))];
    assert fs[..1] == [fs[0]] && [fs[0]][..0] == [];
    assert Current.ScanFormats(fs[..1]) == Current.Best(128, Some(u1));
    assert Older.ScanRequested(fs[..1]) == Older.Pick(128, Some(fs[0]));
  }

  /** A bitrate of 0 can be chosen by the current loop, never by the older. */
  lemma ZeroBitrate(u: string)
    ensures Current.ScanFormats([Format(Some("opus"), Some(0), Some(u))]).uri == Some(u)
    ensures Older.ScanRequested([Format(Some("opus"), Some(0), Some(u))]).chosen.None?
  {
    assert [Format(Some("opus"), Some(0), Some(u))][..0] == [];
  }

  /** A format without `acodec` is skipped by the current loop and accepted
      by the older. */
  lemma MissingCodec(u: string)
    ensures Current.ScanFormats([Format(None, Some(128), Some(u))]).uri.None?
    ensures Older.ScanRequested([Format(None, Some(128), Some(u))]).chosen == Some(Format(None, Some(128), Some(u)))
  {
    assert [Format(None, Some(128), Some(u))][..0] == [];
  }

  /** The older loop can pick a format that has no `url`, and then resolves
      to nothing rather than falling back to the root `url`. */
  lemma PickedFormatWithoutUrl(root: string)
    ensures var fs := [Format(Some("opus"), Some(128), None)];
            Older.GetUri(Older.Parsed(Older.DumpJson(Some(root), Some(fs)))).None?
  {
    assert [Format(Some("opus"), Some(128), None)][..0] == [];
  }

  /** The current loop reads `abr` into an unsigned int: any negative 32-bit
      value becomes a bitrate of at least 2^31 and beats every non-negative
      32-bit one, so when some candidate has a negative bitrate the format
      chosen has one too. The older loop never picks a format whose bitrate,
      read as a `gint`, is not positive. */
  lemma NegativeBitrateWinsInCurrent(fs: seq<Format>, k0: int)
    requires 0 <= k0 < |fs| && Current.Candidate(fs[k0]) && fs[k0].abr.value < 0
    requires forall j :: 0 <= j < |fs| && Current.Candidate(fs[j]) ==> -INT32_MAX - 1 <= fs[j].abr.value <= INT32_MAX
    ensures Current.ScanFormats(fs).uri.Some?
    ensures exists k :: Current.ChosenAt(fs, k, Current.ScanFormats(fs)) && fs[k].abr.value < 0
    ensures Older.ScanRequested(fs).chosen.Some? ==>
              Older.ScanRequested(fs).chosen.value.abr.Some? && ToInt32(Older.ScanRequested(fs).chosen.value.abr.value) > 0
  {
    Current.ScanFindsLastBest(fs);
    var k :| Current.ChosenAt(fs, k, Current.ScanFormats(fs));
    if fs[k].abr.value >= 0 {
      NegativeOutranks(fs[k0], fs[k]);
      assert false;
    }
    OlderPicksPositive(fs);
  }

  /** A negative 32-bit bitrate read as unsigned exceeds every non-negative
      32-bit one. */
  lemma NegativeOutranks(f: Format, g: Format)
    requires f.abr.Some? && -INT32_MAX - 1 <= f.abr.value < 0
    requires g.abr.Some? && 0 <= g.abr.value <= INT32_MAX
    ensures Current.Bitrate(f) > Current.Bitrate(g)
  {
    assert Current.Bitrate(f) == f.abr.value + UINT32_RANGE;
  }

  /** Whatever the older loop picks has a bitrate that is positive once
      narrowed to a `gint`. */
  lemma OlderPicksPositive(fs: seq<Format>)
    ensures Older.ScanRequested(fs).chosen.Some? ==>
              Older.ScanRequested(fs).chosen.value.abr.Some? && ToInt32(Older.ScanRequested(fs).chosen.value.abr.value) > 0
  {
    Older.ScanPicksFirstBest(fs);
    if Older.ScanRequested(fs).chosen.Some? {
      var k :| Older.PickedAt(fs, k, Older.ScanRequested(fs));
    }
  }

  /** The smallest case: -1 then 160 kbit/s. */
  lemma NegativeBitrateExample(u1: string, u2: string)
    ensures var fs := [Format(Some("opus"), Some(-1), Some(u1)), Format(Some("opus"), Some(160), Some(u2))];
            && Current.ScanFormats(fs).uri == Some(u1)
            && Older.ScanRequested(fs).chosen == Some(fs[1])
  {
    var fs := [Format(Some("opus"), Some(-1), Some(u1)), Format(Some("opus"), Some(160), Some(u2))];
    assert fs[..1] == [fs[0]] && [fs[0]][..0] == [];
    assert ToUInt32(-1) == 0xffff_ffff;
    assert ToInt32(-1) == -1;
    assert Current.ScanFormats(fs[..1]) == Current.Best(0xffff_ffff, Some(u1));
    assert Older.ScanRequested(fs[..1]) == Older.Pick(0, None);
  }

  /** A "none" codec, then 64 and 128 kbit/s audio: both loops pick 128. */
  lemma ThreeFormats(u0: string, u1: string, u2: string)
    ensures var fs := [Format(Some("none"), Some(0), Some(u0)),
                       Format(Some("mp3"), Some(64), Some(u1)),
                       Format(Some("aac"), Some(128), Some(u2))];
            && Current.ScanFormats(fs).uri == Some(u2)
            && Older.ScanRequested(fs).chosen == Some(fs[2])
  {
    var fs := [Format(Some("none"), Some(0), Some(u0)),
               Format(Some("mp3"), Some(64), Some(u1)),
               Format(Some("aac"), Some(128), Some(u2))];
    assert fs[..2] == [fs[0], fs[1]] && fs[..2][..1] == [fs[0]] && [fs[0]][..0] == [];
    assert Current.ScanFormats(fs[..2][..1]) == Current.Best(0, None);
    assert Current.ScanFormats(fs[..2]) == Current.Best(64, Some(u1));
    assert Older.ScanRequested(fs[..2][..1]) == Older.Pick(0, None);
    assert Older.ScanRequested(fs[..2]) == Older.Pick(64, Some(fs[1]));
  }
}

=== FILE: text.dfy ===
/** String helpers over `seq<char>` that stand for the GLib/libc calls the
    plugin makes: g_str_has_prefix, memchr, strrchr, g_path_get_basename. */
module Text {
  import opened Wrappers

  /** g_str_has_prefix: `s` starts with `p`. */
  predicate HasPrefix(s: string, p: string) {
    |p| <= |s| && s[..|p|] == p
  }

  /** memchr: index of the first occurrence of `c`. */
  function FirstIndex(s: string, c: char): (r: Option<nat>)
    ensures r.Some? ==> r.value < |s| && s[r.value] == c
    ensures r.Some? ==> forall j :: 0 <= j < r.value ==> s[j] != c
    ensures r.None? ==> forall j :: 0 <= j < |s| ==> s[j] != c
    decreases |s|
  {
    if |s| == 0 then None
    else if s[0] == c then Some(0)
    else match FirstIndex(s[1..], c)
      case None => None
      case Some(i) => Some(i + 1)
  }

  /** strrchr: index of the last occurrence of `c`. */
  function LastIndex(s: string, c: char): (r: Option<nat>)
    ensures r.Some? ==> r.value < |s| && s[r.value] == c
    ensures r.Some? ==> forall j :: r.value < j < |s| ==> s[j] != c
    ensures r.None? ==> forall j :: 0 <= j < |s| ==> s[j] != c
    decreases |s|
  {
    if |s| == 0 then None
    else if s[|s| - 1] == c then Some(|s| - 1)
    else LastIndex(s[..|s| - 1], c)
  }

  /** `s` without its trailing run of `c`. */
  function TrimEnd(s: string, c: char): (r: string)
    ensures |r| <= |s| && r == s[..|r|]
    ensures |r| > 0 ==> r[|r| - 1] != c
    ensures forall j :: |r| <= j < |s| ==> s[j] == c
    decreases |s|
  {
    if |s| > 0 && s[|s| - 1] == c then TrimEnd(s[..|s| - 1], c) else s
  }

  /** g_path_get_basename: "." for the empty path, "/" for a path made only
      of separators, otherwise the last component once trailing separators
      are dropped. */
  function Basename(path: string): (r: string)
    ensures |r| > 0
    ensures |path| == 0 ==> r == "."
    ensures r == "/" <==> |path| > 0 && forall j :: 0 <= j < |path| ==> path[j] == '/'
    ensures r == "/" || forall j :: 0 <= j < |r| ==> r[j] != '/'
    ensures var t := TrimEnd(path, '/');
            |t| > 0 ==> |r| <= |t| && r == t[|t| - |r|..] && (|r| == |t| || t[|t| - |r| - 1] == '/')
  {
    if |path| == 0 then "."
    else
      var t := TrimEnd(path, '/');
      if |t| == 0 then "/"
      else match LastIndex(t, '/')
        case None => t
        case Some(i) => t[i + 1..]
  }

  /** The base name of `dir + "/" + name` is `name` whenever `name` is a
      non-empty component. */
  lemma BasenameOfJoin(dir: string, name: string)
    requires |name| > 0
    requires forall j :: 0 <= j < |name| ==> name[j] != '/'
    ensures Basename(dir + "/" + name) == name
  {
    var path := dir + "/" + name;
    assert path[|path| - 1] == name[|name| - 1];
    assert TrimEnd(path, '/') == path;
    var i := LastIndex(path, '/');
    assert path[|dir|] == '/';
    assert i.Some? && i.value == |dir| by {
      assert forall j :: |dir| < j < |path| ==> path[j] == name[j - |dir| - 1];
    }
    assert path[|dir| + 1..] == name;
  }

  /** A path holding no separator is its own base name. */
  lemma BasenameOfPlainName(name: string)
    requires |name| > 0
    requires forall j :: 0 <= j < |name| ==> name[j] != '/'
    ensures Basename(name) == name
  {
    assert TrimEnd(name, '/') == name;
  }
}

=== FILE: webplayer_player.dfy ===
/** The current web player (src/melo_webplayer_player.c): best-audio selection
    over the formats the grabber reports, the worker queue where only the newest
    request is served, the grabber update handshake, and the mapping from bus
    messages and requests to pipeline and player state.

    The HTTP replies, file contents, unzip exit status, grabber output and
    pipeline query results are parameters. Calls the plugin makes into code
    outside the model are appended to `calls`. */
module WebplayerPlayer {
  import opened Wrappers
  import opened Text
  import opened Formats
  import Gst

  /* ---------------------------------------------------------------------- */
  /* Best audio format                                                        */
  /* ---------------------------------------------------------------------- */

  /** A format the loop can pick: an audio codec other than "none", a bitrate
      and a URL. */
  predicate Candidate(f: Format) {
    f.acodec.Some? && f.acodec.value != "none" && f.abr.Some? && f.url.Some?
  }

  /** `abr` as the loop reads it: PyLong_AsLong stored into an `unsigned int`. */
  function Bitrate(f: Format): nat
    requires f.abr.Some?
  {
    ToUInt32(f.abr.value)
  }

  /** The loop's two locals: the best bitrate so far and its URL. */
  datatype Best = Best(abr: nat, uri: Option<string>)

  /** One iteration of the format loop. A format is skipped when its codec is
      missing or "none", when its bitrate is missing or below the best so far,
      or when it has no URL; otherwise it becomes the best. */
  function Consider(b: Best, f: Format): Best {
    if f.acodec.None? || f.acodec.value == "none" then b
    else if f.abr.None? || Bitrate(f) < b.abr then b
    else if f.url.None? then b
    else Best(Bitrate(f), f.url)
  }

  /** The loop over the whole list, starting from bitrate 0 and no URL. */
  function ScanFormats(fs: seq<Format>): Best
  {
    if |fs| == 0 then Best(0, None)
    else Consider(ScanFormats(fs[..|fs| - 1]), fs[|fs| - 1])
  }

  /** `b` is what picking `fs[k]` yields, `fs[k]` has the highest bitrate of
      all candidates, and every later candidate has a strictly lower one: among
      equal bitrates the last one wins. */
  ghost predicate ChosenAt(fs: seq<Format>, k: int, b: Best) {
    && 0 <= k < |fs|
    && Candidate(fs[k])
    && b.uri == fs[k].url
    && b.abr == Bitrate(fs[k])
    && (forall j :: 0 <= j < |fs| && Candidate(fs[j]) ==> Bitrate(fs[j]) <= Bitrate(fs[k]))
    && (forall j :: k < j < |fs| && Candidate(fs[j]) ==> Bitrate(fs[j]) < Bitrate(fs[k]))
  }

  /** The loop finds a URL exactly when some format is a candidate, and the
      one it finds is the last candidate of highest bitrate. */
  lemma {:induction false} ScanFindsLastBest(fs: seq<Format>)
    ensures ScanFormats(fs).uri.None? ==> ScanFormats(fs).abr == 0
    ensures ScanFormats(fs).uri.None? <==> forall j :: 0 <= j < |fs| ==> !Candidate(fs[j])
    ensures ScanFormats(fs).uri.Some? ==> exists k :: ChosenAt(fs, k, ScanFormats(fs))
  {
    if |fs| > 0 {
      var n := |fs| - 1;
      var init := fs[..n];
      var f := fs[n];
      ScanFindsLastBest(init);
      var b := ScanFormats(init);
      assert forall j :: 0 <= j < n ==> init[j] == fs[j];
      if !Candidate(f) {
        assert ScanFormats(fs) == b;
        if b.uri.Some? {
          var k :| ChosenAt(init, k, b);
          assert ChosenAt(fs, k, b);
        }
      } else if Bitrate(f) < b.abr {
        assert ScanFormats(fs) == b;
        var k :| ChosenAt(init, k, b);
        assert ChosenAt(fs, k, b);
      } else {
        var r := ScanFormats(fs);
        assert r == Best(Bitrate(f), f.url);
        if b.uri.Some? {
          var k :| ChosenAt(init, k, b);
          assert forall j :: 0 <= j < n && Candidate(fs[j]) ==> Bitrate(fs[j]) <= b.abr;
        }
        assert ChosenAt(fs, n, r);
      }
    }
  }

  /** At most one position satisfies the selection rule. */
  lemma ChosenAtIsUnique(fs: seq<Format>, k1: int, k2: int, b: Best)
    requires ChosenAt(fs, k1, b) && ChosenAt(fs, k2, b)
    ensures k1 == k2
  {
  }

  /* ---------------------------------------------------------------------- */
  /* Player state                                                             */
  /* ---------------------------------------------------------------------- */

  /** MeloPlayerState. */
  datatype State = NoneState | Playing | Paused | Stopped

  /** MeloPlayerStreamState. */
  datatype StreamState = StreamNone | StreamLoading | StreamBuffering

  /** What the plugin reports to the player core through melo_player_update_*. */
  datatype Status = Status(
    state: State,
    stream: StreamState,
    percent: int,
    position: int,
    duration: int,
    error: Option<string>,
    tags: Option<map<string, string>>)

  /** An entry of the worker queue. `Sentinel` is the static empty string the
      plugin pushes to wake the worker; it is told apart from a real URL by
      pointer identity, so a play request for "" is a `Url("")`. */
  datatype QueueItem = Sentinel | Url(url: string)

  /** Calls into code outside the model, in the order they are made. */
  datatype Call =
    | GetVersion             // HTTP GET of the latest-version file
    | GetGrabber             // HTTP GET of the grabber archive
    | SpawnUnzip             // `unzip -od output file`, waited for asynchronously
    | PlayerEos              // melo_player_eos
    | Seek(ns: int)          // gst_element_seek to an absolute time

  datatype Player = Player(
    hasClient: bool,                // the HTTP client exists
    updating: bool,
    pending: Option<string>,        // the URL saved while updating
    version: Option<string>,        // version string held in memory
    versionFile: Option<string>,    // contents of the on-disk version file
    grabberFile: Option<string>,    // contents of the saved grabber archive
    queue: seq<QueueItem>,
    pipeline: Gst.GstState,
    srcUri: Option<string>,         // "uri" property of the source element
    status: Status,
    calls: seq<Call>)

  const VIDEO_NOT_FOUND: string := "video not found"

  /* ---------------------------------------------------------------------- */
  /* Worker thread                                                            */
  /* ---------------------------------------------------------------------- */

  /** The pop loop: every item popped replaces the one held before it. */
  function DrainFrom(held: QueueItem, rest: seq<QueueItem>): (r: QueueItem)
    ensures |rest| == 0 ==> r == held
    ensures |rest| > 0 ==> r == rest[|rest| - 1]
    decreases |rest|
  {
    if |rest| == 0 then held else DrainFrom(rest[0], rest[1..])
  }

  /** The URL the worker handles after emptying a non-empty queue (the first
      pop blocks until there is one): the newest item, with the sentinel read
      as "no URL". */
  function Drain(q: seq<QueueItem>): (r: Option<string>)
    requires |q| > 0
    ensures q[|q| - 1].Sentinel? <==> r.None?
    ensures q[|q| - 1].Url? ==> r == Some(q[|q| - 1].url)
  {
    match DrainFrom(q[0], q[1..])
    case Sentinel => None
    case Url(u) => Some(u)
  }

  /** What extract_info returns: an exception, or a result whose "formats"
      member is present and a list (Some) or present and of another type
      (None). A result without "formats" is not modelled: the code passes the
      NULL lookup result to PyList_Check. */
  datatype Info = ExtractFailed | Extracted(formats: Option<seq<Format>>)

  /** The stream URI resolved from one extract_info result. */
  function ResolveUri(info: Info): Option<string> {
    match info
    case ExtractFailed => None
    case Extracted(fs) => if fs.Some? then ScanFormats(fs.value).uri else None
  }

  /** How one worker iteration ends. `Idle` covers the `continue` paths: the
      grabber module or its instance could not be obtained, or there is no
      URL to resolve. */
  datatype Outcome = Exit | Idle | Started(uri: string) | NotFound

  /** One iteration of the worker loop. `grabberReady` says whether the Python
      module and its instance are available; `extract` is the grabber. */
  function WorkerStep(p: Player, stop: bool, grabberReady: bool, extract: string -> Info): (r: (Outcome, Player))
    requires |p.queue| > 0
    ensures r.1.queue == []
    ensures stop <==> r.0 == Exit
    ensures p.queue[|p.queue| - 1].Sentinel? ==> r.0 == Exit || r.0 == Idle
    ensures r.0.Started? ==> r.1 == p.(queue := [], srcUri := Some(r.0.uri), pipeline := Gst.Playing)
    ensures r.0.NotFound? ==> r.1.status == p.status.(state := Stopped, error := Some(VIDEO_NOT_FOUND))
    ensures r.0.NotFound? ==> r.1.(status := p.status) == p.(queue := [])
    ensures r.0 == Exit || r.0 == Idle ==> r.1 == p.(queue := [])
  {
    var url := Drain(p.queue);
    var drained := p.(queue := []);
    if stop then (Exit, drained)
    else if !grabberReady || url.None? then (Idle, drained)
    else
      var uri := ResolveUri(extract(url.value));
      if uri.Some? then
        (Started(uri.value), drained.(srcUri := uri, pipeline := Gst.Playing))
      else
        (NotFound, drained.(status := drained.status.(state := Stopped, error := Some(VIDEO_NOT_FOUND))))
  }

  /** The worker starts a stream exactly when it resolves the newest URL in the
      queue to some candidate format, and the stream it starts is the last
      candidate of highest bitrate; when the grabber finds none it stops with
      "video not found". */
  lemma WorkerPlaysNewestBest(p: Player, grabberReady: bool, extract: string -> Info)
    requires |p.queue| > 0 && grabberReady
    requires p.queue[|p.queue| - 1].Url?
    ensures var u := p.queue[|p.queue| - 1].url;
            var r := WorkerStep(p, false, true, extract);
            && (r.0.Started? <==>
                  extract(u).Extracted? && extract(u).formats.Some? &&
                  exists j :: 0 <= j < |extract(u).formats.value| && Candidate(extract(u).formats.value[j]))
            && (r.0.Started? ==> exists k :: ChosenAt(extract(u).formats.value, k, ScanFormats(extract(u).formats.value)))
            && (r.0.Started? ==> Some(r.0.uri) == ScanFormats(extract(u).formats.value).uri)
            && (!r.0.Started? ==> r.0 == NotFound)
  {
    var u := p.queue[|p.queue| - 1].url;
    var info := extract(u);
    if info.Extracted? && info.formats.Some? {
      ScanFindsLastBest(info.formats.value);
    }
  }

  /* ---------------------------------------------------------------------- */
  /* Play request and grabber update                                          */
  /* ---------------------------------------------------------------------- */

  /** The early exits of the update flow: wake the worker and end the update.
      A URL saved while updating stays saved. */
  function Abort(p: Player): (r: Player)
    ensures !r.updating && r.pending == p.pending
    ensures r.queue == p.queue + [Sentinel]
    ensures r.(queue := p.queue, updating := p.updating) == p
  {
    p.(queue := p.queue + [Sentinel], updating := false)
  }

  /** melo_webplayer_player_play: stop the pipeline, then either save the URL
      (replacing any saved one) while an update runs, or queue it. Always
      answers true. */
  function Play(p: Player, url: string): (r: (bool, Player))
    ensures r.0
    ensures r.1.pipeline == Gst.Null
    ensures p.updating ==> r.1.pending == Some(url) && r.1.queue == p.queue
    ensures !p.updating ==> r.1.queue == p.queue + [Url(url)] && r.1.pending == p.pending
    ensures r.1.(pipeline := p.pipeline, pending := p.pending, queue := p.queue) == p
  {
    var stopped := p.(pipeline := Gst.Null);
    if stopped.updating then (true, stopped.(pending := Some(url)))
    else (true, stopped.(queue := stopped.queue + [Url(url)]))
  }

  /** melo_webplayer_player_update_grabber: start an update (fetch the version
      file) unless one is running or there is no HTTP client. */
  function UpdateGrabber(p: Player): (r: Player)
    ensures !p.hasClient || p.updating ==> r == p
    ensures p.hasClient && !p.updating ==> r == p.(updating := true, calls := p.calls + [GetVersion])
  {
    if !p.hasClient || p.updating then p
    else p.(updating := true, calls := p.calls + [GetVersion])
  }

  /** The version check: the local file is current when its first
      strlen(remote) bytes are the remote version (the file is NUL-terminated
      in memory, so a shorter file compares different). */
  predicate IsCurrent(versionFile: Option<string>, remote: string) {
    versionFile.Some? && HasPrefix(versionFile.value, remote)
  }

  /** version_cb: on HTTP 200, hold the remote version and download the
      grabber unless the local version file is current; on any other status,
      or when it is current, end the update. */
  function VersionReply(p: Player, code: int, data: string): (r: Player)
    requires p.updating
    ensures r.calls == p.calls + [GetGrabber] <==> code == 200 && !IsCurrent(p.versionFile, data)
    ensures r.calls == p.calls || r.calls == p.calls + [GetGrabber]
    ensures r.updating <==> r.calls != p.calls
    ensures !r.updating ==> r.queue == p.queue + [Sentinel] && r.pending == p.pending
    ensures r.updating ==> r.queue == p.queue
    ensures code == 200 ==> r.version == Some(data)
    ensures code != 200 ==> r.version == p.version
    ensures r.(version := p.version, calls := p.calls, updating := p.updating, queue := p.queue) == p
  {
    if code != 200 then Abort(p)
    else
      var held := p.(version := Some(data));
      if !IsCurrent(p.versionFile, data) then held.(calls := held.calls + [GetGrabber])
      else Abort(held)
  }

  /** A header line of the grabber payload: starts with '#' and ends at the
      first newline. */
  predicate IsHeaderLine(h: string) {
    && |h| > 0 && h[0] == '#' && h[|h| - 1] == '\n'
    && forall j :: 0 <= j < |h| - 1 ==> h[j] != '\n'
  }

  /** What update_cb means to save: the payload without its first line when
      the payload starts with '#' and holds a newline, the payload unchanged
      otherwise. (The byte window the code actually passes is one byte longer,
      see HeaderWindowAsWritten.) */
  function StripHeader(data: string): (saved: string)
    ensures |saved| <= |data| && data[|data| - |saved|..] == saved
    ensures |data| > 0 && data[0] == '#' && '\n' in data ==> IsHeaderLine(data[..|data| - |saved|])
    ensures !(|data| > 0 && data[0] == '#' && '\n' in data) ==> saved == data
  {
    if |data| > 0 && data[0] == '#' then
      match FirstIndex(data, '\n')
      case Some(nl) => data[nl + 1..]
      case None => data
    else data
  }

  /** Stripping a header line from a payload gives back the payload, and a
      payload that does not start with '#' is saved as is. */
  lemma StripHeaderRoundTrip(header: string, body: string)
    requires IsHeaderLine(header)
    ensures StripHeader(header + body) == body
    ensures |body| == 0 || body[0] != '#' ==> StripHeader(body) == body
  {
    var data := header + body;
    assert data[|header| - 1] == '\n';
    assert forall j :: 0 <= j < |header| - 1 ==> data[j] != '\n';
    var saved := StripHeader(data);
    assert data[..|data| - |saved|] == header[..|data| - |saved|];
    assert |data| - |saved| == |header|;
    assert data[|header|..] == body;
  }

  /** The (offset, length) window update_cb hands to g_file_set_contents, as
      written: `size` is reduced by the newline offset while `data` moves one
      byte past the newline. */
  function HeaderWindowAsWritten(data: string): (w: (nat, nat))
    ensures w.0 <= |data|
  {
    if |data| > 0 && data[0] == '#' then
      match FirstIndex(data, '\n')
      case Some(nl) => (nl + 1, |data| - nl)
      case None => (0, |data|)
    else (0, |data|)
  }

  /** For every payload with a header line the written window ends one byte
      past the end of the downloaded data, while the window of StripHeader
      ends exactly at it. */
  lemma HeaderWindowOverruns(data: string)
    requires |data| > 0 && data[0] == '#' && '\n' in data
    ensures HeaderWindowAsWritten(data).0 + HeaderWindowAsWritten(data).1 == |data| + 1
    ensures HeaderWindowAsWritten(data).0 == |data| - |StripHeader(data)|
    ensures HeaderWindowAsWritten(data).1 == |StripHeader(data)| + 1
  {
    var i :| 0 <= i < |data| && data[i] == '\n';
    assert FirstIndex(data, '\n').Some?;
  }

  /** The smallest payload that shows it: "#\nA" holds 1 byte after its header
      line, but the window written covers 2. */
  lemma HeaderWindowExample()
    ensures HeaderWindowAsWritten("#\nA") == (2, 2)
    ensures StripHeader("#\nA") == "A"
  {
    assert FirstIndex("#\nA", '\n') == Some(1);
  }

  /** update_cb: on HTTP 200 save the stripped payload and start unzip; any
      failure (status, save, spawn) ends the update. */
  function UpdateReply(p: Player, code: int, data: string, saveOk: bool, spawnOk: bool): (r: Player)
    requires p.updating
    ensures r.updating <==> code == 200 && saveOk && spawnOk
    ensures r.calls == (if code == 200 && saveOk && spawnOk then p.calls + [SpawnUnzip] else p.calls)
    ensures r.grabberFile == (if code == 200 && saveOk then Some(StripHeader(data)) else p.grabberFile)
    ensures r.pending == p.pending && r.version == p.version && r.versionFile == p.versionFile
    ensures code == 200 && saveOk && spawnOk ==> r.queue == p.queue
    ensures !(code == 200 && saveOk && spawnOk) ==> !r.updating && r.queue == p.queue + [Sentinel]
    ensures r.(updating := p.updating, calls := p.calls, grabberFile := p.grabberFile, queue := p.queue) == p
  {
    if code != 200 then Abort(p)
    else if !saveOk then Abort(p)
    else
      var saved := p.(grabberFile := Some(StripHeader(data)));
      if !spawnOk then Abort(saved)
      else saved.(calls := saved.calls + [SpawnUnzip])
  }

  /** The `end:` block of unzip_cb: end the update, then play the saved URL
      once and forget it, or wake the worker. */
  function Settle(p: Player): (r: Player)
    ensures !r.updating && r.pending.None?
    ensures p.pending.Some? ==> r.queue == p.queue + [Url(p.pending.value)] && r.pipeline == Gst.Null
    ensures p.pending.None? ==> r.queue == p.queue + [Sentinel] && r.pipeline == p.pipeline
    ensures r.(updating := p.updating, pending := p.pending, queue := p.queue, pipeline := p.pipeline) == p
  {
    var done := p.(updating := false);
    match done.pending
    case Some(u) => Play(done, u).1.(pending := None)
    case None => done.(queue := done.queue + [Sentinel])
  }

  /** unzip_cb: exit status 0 or 1 persists the held version (unless the
      file cannot be written); any other status reloads the held version from
      the file; a failed wait changes neither. Then Settle. */
  function UnzipDone(p: Player, waitOk: bool, status: int, saveOk: bool): (r: Player)
    requires waitOk && (status == 0 || status == 1) && saveOk ==> p.version.Some?
    ensures !r.updating && r.pending.None?
    ensures r.queue == p.queue + [if p.pending.Some? then Url(p.pending.value) else Sentinel]
    ensures waitOk && (status == 0 || status == 1) && saveOk ==> r.versionFile == p.version && r.version == p.version
    ensures waitOk && status != 0 && status != 1 ==> r.version == p.versionFile && r.versionFile == p.versionFile
    ensures !waitOk ==> r.version == p.version && r.versionFile == p.versionFile
    ensures waitOk && (status == 0 || status == 1) && !saveOk ==> r.version == p.version && r.versionFile == p.versionFile
    ensures r.calls == p.calls
    ensures r.pipeline == if p.pending.Some? then Gst.Null else p.pipeline
    ensures r.(updating := p.updating, pending := p.pending, queue := p.queue, pipeline := p.pipeline,
               version := p.version, versionFile := p.versionFile) == p
  {
    var p1 :=
      if !waitOk then p
      else if status == 0 || status == 1 then
        (if saveOk then p.(versionFile := p.version) else p)
      else p.(version := p.versionFile);
    Settle(p1)
  }

  /** Last writer wins: two play requests during an update leave only the
      second one saved, and neither reaches the queue. */
  lemma PlayDuringUpdateKeepsNewest(p: Player, a: string, b: string)
    requires p.updating
    ensures Play(Play(p, a).1, b).1.pending == Some(b)
    ensures Play(Play(p, a).1, b).1.queue == p.queue
  {
  }

  /** A full update on a fresh install, with two play requests arriving before
      the version check answers: the version file ends up holding the remote
      version, the update is over, and the second request is the only one
      queued. */
  lemma UpdateServesNewestPlayOnce(p: Player, a: string, b: string, remote: string, payload: string)
    requires p.hasClient && !p.updating && p.pending.None? && p.versionFile.None?
    ensures var p1 := UpdateGrabber(p);
            var p3 := Play(Play(p1, a).1, b).1;
            var p4 := VersionReply(p3, 200, remote);
            var p5 := UpdateReply(p4, 200, payload, true, true);
            var p6 := UnzipDone(p5, true, 0, true);
            && p6.queue == p.queue + [Url(b)]
            && p6.versionFile == Some(remote)
            && p6.grabberFile == Some(StripHeader(payload))
            && !p6.updating && p6.pending.None?
            && p6.calls == p.calls + [GetVersion, GetGrabber, SpawnUnzip]
  {
  }

  /** After an update has persisted the remote version, checking the same
      remote version again downloads nothing and ends the update. */
  lemma SecondCheckDownloadsNothing(p: Player, remote: string)
    requires p.updating
    requires p.version == Some(remote) && p.versionFile == Some(remote)
    ensures VersionReply(p, 200, remote).calls == p.calls
    ensures !VersionReply(p, 200, remote).updating
  {
  }

  /** The up-to-date exit: when the local version file is current, a URL
      saved during the check is neither played nor queued; only the
      sentinel wakes the worker. */
  lemma UpToDateCheckKeepsSavedUrl(p: Player, url: string, remote: string)
    requires p.updating && IsCurrent(p.versionFile, remote)
    ensures var r := VersionReply(Play(p, url).1, 200, remote);
            && !r.updating && r.pending == Some(url)
            && r.queue == p.queue + [Sentinel]
            && r.calls == p.calls
  {
  }

  /** The comparison reads only strlen(remote) bytes: a local file that merely
      starts with the remote version counts as current. */
  lemma LongerLocalVersionCountsAsCurrent()
    ensures IsCurrent(Some("2021.12.17.1"), "2021.12.17")
    ensures !IsCurrent(Some("2021.12"), "2021.12.17")
  {
  }

  /* ---------------------------------------------------------------------- */
  /* Bus messages and requests                                                */
  /* ---------------------------------------------------------------------- */

  /** The bus messages the plugin reacts to. Query results are carried with
      the message (None when the query fails, which leaves the C variable 0). */
  datatype BusMessage =
    | DurationChanged(position: Option<int>, duration: Option<int>)
    | AsyncDone(position: Option<int>, duration: Option<int>)
    | Tag(tags: map<string, string>)
    | StreamStart
    | Buffering(percent: int)
    | Error(message: string)
    | Eos
    | OtherMessage

  /** A pipeline time query converted to milliseconds as bus_cb does. */
  function QueryMs(q: Option<int>): (ms: int)
    ensures q.None? ==> ms == 0
    ensures q.Some? && q.value >= 0 ==> ms >= 0 && ms * NS_PER_MS <= q.value < (ms + 1) * NS_PER_MS
  {
    TruncDiv(q.GetOr(0), NS_PER_MS)
  }

  /** bus_cb. */
  function OnBus(p: Player, m: BusMessage): (r: Player)
    ensures m.StreamStart? ==> r.status.state == Playing && r.status.stream == StreamNone && r.status.percent == 0
    ensures m.Buffering? ==> r.status.percent == m.percent
    ensures m.Buffering? ==> (r.status.stream == StreamBuffering <==> m.percent < 100)
    ensures m.Buffering? ==> r.status.stream == StreamBuffering || r.status.stream == StreamNone
    ensures m.Error? ==> r.pipeline == Gst.Null && r.status.state == Stopped && r.status.error == Some(m.message)
    ensures m.Eos? ==> r.pipeline == Gst.Null && r.calls == p.calls + [PlayerEos] && r.status == p.status
    ensures m.Tag? ==> r.status.tags == Some(m.tags)
    ensures (m.DurationChanged? || m.AsyncDone?) ==> r.status.position == QueryMs(m.position)
    ensures (m.DurationChanged? || m.AsyncDone?) ==> r.status.duration == QueryMs(m.duration)
    ensures !m.Error? && !m.Eos? ==> r.pipeline == p.pipeline && r.calls == p.calls
    ensures m.OtherMessage? ==> r == p
    ensures r.queue == p.queue && r.updating == p.updating && r.pending == p.pending
    ensures r.(pipeline := p.pipeline, calls := p.calls, status := p.status) == p
    ensures m.StreamStart? ==> r.status.(state := p.status.state, stream := p.status.stream, percent := p.status.percent) == p.status
    ensures m.Buffering? ==> r.status.(stream := p.status.stream, percent := p.status.percent) == p.status
    ensures m.Error? ==> r.status.(state := p.status.state, error := p.status.error) == p.status
    ensures m.Tag? ==> r.status.(tags := p.status.tags) == p.status
    ensures (m.DurationChanged? || m.AsyncDone?) ==> r.status.(position := p.status.position, duration := p.status.duration) == p.status
  {
    match m
    case DurationChanged(pos, dur) =>
      p.(status := p.status.(position := QueryMs(pos), duration := QueryMs(dur)))
    case AsyncDone(pos, dur) =>
      p.(status := p.status.(position := QueryMs(pos), duration := QueryMs(dur)))
    case Tag(t) => p.(status := p.status.(tags := Some(t)))
    case StreamStart => p.(status := p.status.(state := Playing, stream := StreamNone, percent := 0))
    case Buffering(pc) =>
      p.(status := p.status.(stream := if pc < 100 then StreamBuffering else StreamNone, percent := pc))
    case Error(msg) =>
      p.(pipeline := Gst.Null, status := p.status.(state := Stopped, error := Some(msg)))
    case Eos => p.(pipeline := Gst.Null, calls := p.calls + [PlayerEos])
    case OtherMessage => p
  }

  /** The pipeline target a requested player state maps to. */
  function PipelineFor(s: State): Gst.GstState {
    match s
    case Playing => Gst.Playing
    case Paused => Gst.Paused
    case _ => Gst.Null
  }

  /** melo_webplayer_player_set_state: PLAYING and PAUSED map to the
      pipeline states of the same name, anything else to NULL; always true. */
  function SetState(p: Player, s: State): (r: (bool, Player))
    ensures r.0
    ensures r.1 == p.(pipeline := r.1.pipeline)
    ensures r.1.pipeline == Gst.Playing <==> s == Playing
    ensures r.1.pipeline == Gst.Paused <==> s == Paused
    ensures r.1.pipeline == Gst.Null <==> s != Playing && s != Paused
  {
    (true, p.(pipeline := PipelineFor(s)))
  }

  /** Requests do not accumulate: the last requested state alone decides the
      pipeline, and every state other than PLAYING and PAUSED acts as STOPPED. */
  lemma SetStateLastWins(p: Player, s1: State, s2: State)
    ensures SetState(SetState(p, s1).1, s2) == SetState(p, s2)
    ensures s2 != Playing && s2 != Paused ==> SetState(p, s2) == SetState(p, Stopped)
  {
  }

  /** A pipeline error overrides any requested state: the pipeline ends NULL
      and the player STOPPED with the message, whatever was asked before. */
  lemma ErrorOverridesSetState(p: Player, s: State, msg: string)
    ensures var r := OnBus(SetState(p, s).1, Error(msg));
            r.pipeline == Gst.Null && r.status.state == Stopped && r.status.error == Some(msg)
  {
  }

  /** Reports overwrite one another: of two buffering, tag or time reports in
      a row only the second one shows. */
  lemma LastReportWins(p: Player, m1: BusMessage, m2: BusMessage)
    requires (m1.Buffering? && m2.Buffering?) || (m1.Tag? && m2.Tag?)
          || ((m1.DurationChanged? || m1.AsyncDone?) && (m2.DurationChanged? || m2.AsyncDone?))
    ensures OnBus(OnBus(p, m1), m2) == OnBus(p, m2)
  {
  }

  /** Buffering is over once the stream starts or 100% is reached, whatever
      was reported before. */
  lemma StreamStartEndsBuffering(p: Player, percent: int)
    ensures OnBus(OnBus(p, Buffering(percent)), StreamStart).status.stream == StreamNone
    ensures OnBus(OnBus(p, Buffering(percent)), Buffering(100)).status.stream == StreamNone
  {
  }

  /** melo_webplayer_player_set_position: seek to `position` ms, answering
      whether the pipeline accepted the seek. `position` is an unsigned int. */
  function SetPosition(p: Player, position: nat, accepted: bool): (r: (bool, Player))
    requires position < UINT32_RANGE
    ensures r.0 == accepted
    ensures |r.1.calls| == |p.calls| + 1 && r.1.calls[..|p.calls|] == p.calls
    ensures r.1.calls[|p.calls|].Seek? && GetPosition(Some(r.1.calls[|p.calls|].ns)) == position
    ensures TruncDiv(r.1.calls[|p.calls|].ns, NS_PER_MS) == position && r.1.calls[|p.calls|].ns % NS_PER_MS == 0
    ensures r.1 == p.(calls := r.1.calls)
  {
    PositionRoundTrip(position);
    (accepted, p.(calls := p.calls + [Seek(position * NS_PER_MS)]))
  }

  /** melo_webplayer_player_get_position: 0 when the position query fails,
      otherwise the position in ms, as an unsigned int. */
  function GetPosition(query: Option<int>): (ms: nat)
    ensures ms < UINT32_RANGE
    ensures query.None? ==> ms == 0
    ensures query.Some? && 0 <= query.value < UINT32_RANGE * NS_PER_MS ==>
              ms * NS_PER_MS <= query.value < (ms + 1) * NS_PER_MS
  {
    match query
    case None => 0
    case Some(v) => ToUInt32(TruncDiv(v, NS_PER_MS))
  }

  /** Seeking to a position and reading it back gives the same position. */
  lemma PositionRoundTrip(position: nat)
    requires position < UINT32_RANGE
    ensures GetPosition(Some(position * NS_PER_MS)) == position
  {
    assert TruncDiv(position * NS_PER_MS, NS_PER_MS) == position;
  }
}

=== FILE: wrappers.dfy ===
/** Optional values, standing in for the NULL pointers of the C code. */
module Wrappers {

  datatype Option<+T> = None | Some(value: T) {

    /** Returns the value held in Some, or `default` for None. */
    function GetOr(default: T): T {
      match this
      case Some(v) => v
      case None => default
    }
  }
}

=== FILE: youtube_api.dfy ===
/** The shapes of the YouTube Data API v3 replies both browsers read, the
    thumbnail choice by priority, and the arguments of the search URL. */
module YoutubeApi {
  import opened Wrappers

  /** The keys of a `thumbnails` object. */
  datatype Size = Default | Medium | High | Standard | Maxres

  /** One thumbnail; `url` is None when the member is missing or the entry is
      not an object (json_object_get_string_member then answers NULL too). */
  datatype Thumb = Thumb(url: Option<string>)

  /** A `snippet` object: its title and its `thumbnails` object, if any. */
  datatype Snippet = Snippet(title: Option<string>, thumbnails: Option<map<Size, Thumb>>)

  /** An `id` object of a search result: its `videoId`. */
  datatype VideoRef = VideoRef(videoId: Option<string>)

  /** One element of the search reply's `items` array. An element that is not
      an object behaves like one with neither `id` nor `snippet`. */
  datatype SearchEntry = SearchEntry(id: Option<VideoRef>, snippet: Option<Snippet>)

  /** `priority[i]` is present and no size before it is. */
  ghost predicate FirstPresentAt(thumbs: map<Size, Thumb>, priority: seq<Size>, i: int) {
    && 0 <= i < |priority|
    && priority[i] in thumbs
    && forall j :: 0 <= j < i ==> priority[j] !in thumbs
  }

  /** The first size of `priority` present in `thumbs`. */
  function FirstPresent(thumbs: map<Size, Thumb>, priority: seq<Size>): (r: Option<Size>)
    ensures r.Some? ==> exists i :: FirstPresentAt(thumbs, priority, i) && priority[i] == r.value
    ensures r.None? ==> forall i :: 0 <= i < |priority| ==> priority[i] !in thumbs
    decreases |priority|
  {
    if |priority| == 0 then None
    else if priority[0] in thumbs then Some(priority[0])
    else
      var r := FirstPresent(thumbs, priority[1..]);
      assert forall i :: FirstPresentAt(thumbs, priority[1..], i) ==> FirstPresentAt(thumbs, priority, i + 1);
      r
  }

  /** The URL of the thumbnail chosen by `priority`, if that thumbnail has one. */
  function ThumbUrl(snip: Snippet, priority: seq<Size>): (r: Option<string>)
    ensures r.Some? ==> snip.thumbnails.Some?
    ensures snip.thumbnails.None? ==> r.None?
  {
    match snip.thumbnails
    case None => None
    case Some(thumbs) =>
      match FirstPresent(thumbs, priority)
      case None => None
      case Some(size) => thumbs[size].url
  }

  /** The arguments that fill the `%s`/`%d` slots of the search URL format
      "search?part=snippet&q=%s&maxResults=%d%s%s&type=video&order=%s&key=…",
      in order. */
  datatype SearchQuery = SearchQuery(
    q: string,
    maxResults: int,
    pageTokenKey: string,
    pageToken: string,
    order: string)

  const PAGE_TOKEN_KEY: string := "&pageToken="
}

=== FILE: youtube_browser.dfy ===
/** The current YouTube browser (src/melo_youtube_browser.c): cover choice and
    its inverse get_asset, media-list request handling and item construction,
    action request validation and the action reply handling.

    HTTP replies are parameters; the library's favourite flag is the function
    `favorite`; calls into the playlist and library are returned as effects. */
module YoutubeBrowser {
  import opened Wrappers
  import opened Text
  import opened YoutubeApi

  const ACTION_URL: string := "http://www.youtube.com/watch?v="
  const ASSET_URL: string := "https://i.ytimg.com/vi/"
  const SEARCH_PREFIX: string := "search:"
  const DEFAULT_ORDER: string := "relevance"
  const MAX_RESULTS: int := 25

  /** medium, then high, default, standard, maxres. */
  const COVER_PRIORITY: seq<Size> := [Medium, High, Default, Standard, Maxres]

  /* ---------------------------------------------------------------------- */
  /* Covers                                                                   */
  /* ---------------------------------------------------------------------- */

  /** melo_youtube_browser_get_asset. */
  function GetAsset(id: string): (url: string)
    ensures HasPrefix(url, ASSET_URL) && url[|ASSET_URL|..] == id
  {
    ASSET_URL + id
  }

  /** melo_youtube_browser_get_cover: the asset id of the thumbnail chosen by
      COVER_PRIORITY, that is its URL without the asset prefix; None when there
      is no thumbnail, no URL, or a URL outside the asset host. */
  function GetCover(snip: Snippet): (id: Option<string>)
    ensures id.Some? <==> ThumbUrl(snip, COVER_PRIORITY).Some? && HasPrefix(ThumbUrl(snip, COVER_PRIORITY).value, ASSET_URL)
    ensures id.Some? ==> GetAsset(id.value) == ThumbUrl(snip, COVER_PRIORITY).value
  {
    match ThumbUrl(snip, COVER_PRIORITY)
    case None => None
    case Some(url) =>
      if HasPrefix(url, ASSET_URL) then
        assert ASSET_URL + url[|ASSET_URL|..] == url;
        Some(url[|ASSET_URL|..])
      else None
  }

  /** The other direction: a chosen thumbnail served from the asset host gives
      back the id it was built from. */
  lemma CoverOfAsset(snip: Snippet, id: string)
    requires ThumbUrl(snip, COVER_PRIORITY) == Some(GetAsset(id))
    ensures GetCover(snip) == Some(id)
  {
  }

  /** With both medium and high thumbnails present, the medium one is used. */
  lemma MediumBeatsHigh(snip: Snippet)
    requires snip.thumbnails.Some? && Medium in snip.thumbnails.value
    ensures ThumbUrl(snip, COVER_PRIORITY) == snip.thumbnails.value[Medium].url
  {
  }

  /* ---------------------------------------------------------------------- */
  /* Media list                                                               */
  /* ---------------------------------------------------------------------- */

  /** The fields of a GetMediaList request this browser reads. */
  datatype ListRequest = ListRequest(query: string, count: int, token: Option<string>, sort: seq<string>)

  /** melo_youtube_browser_get_media_list: None (answer false, no request)
      unless the query is a search; otherwise the search URL arguments. */
  function MediaListQuery(r: ListRequest): (q: Option<SearchQuery>)
    ensures q.Some? <==> HasPrefix(r.query, SEARCH_PREFIX)
    ensures q.Some? ==> SEARCH_PREFIX + q.value.q == r.query
    ensures q.Some? ==> q.value.maxResults <= MAX_RESULTS
    ensures q.Some? ==> (q.value.maxResults == r.count <==> r.count <= MAX_RESULTS)
    ensures q.Some? && r.count > MAX_RESULTS ==> q.value.maxResults == MAX_RESULTS
    ensures q.Some? ==> q.value.pageTokenKey == PAGE_TOKEN_KEY
    ensures q.Some? && r.token.Some? ==> q.value.pageToken == r.token.value
    ensures q.Some? && r.token.None? ==> q.value.pageToken == ""
    ensures q.Some? && |r.sort| > 0 ==> q.value.order == r.sort[0]
    ensures q.Some? && |r.sort| == 0 ==> q.value.order == DEFAULT_ORDER
  {
    var count := if r.count > MAX_RESULTS then MAX_RESULTS else r.count;
    if !HasPrefix(r.query, SEARCH_PREFIX) then None
    else
      assert SEARCH_PREFIX + r.query[|SEARCH_PREFIX|..] == r.query;
      var token := if r.token.Some? && r.token.value != "" then r.token.value else "";
      var order := if |r.sort| > 0 then r.sort[0] else DEFAULT_ORDER;
      Some(SearchQuery(r.query[|SEARCH_PREFIX|..], count, PAGE_TOKEN_KEY, token, order))
  }

  /** Asking again with the count the first request used gives the same
      search: the clamp is idempotent and nothing else depends on the count. */
  lemma MediaListQueryStable(r: ListRequest)
    requires MediaListQuery(r).Some?
    ensures MediaListQuery(r.(count := MediaListQuery(r).value.maxResults)) == MediaListQuery(r)
  {
  }

  /** A search request built from its parts gives those parts back: the
      text after "search:", a count within the limit, the token and the
      first sort. */
  lemma MediaListQueryRoundTrip(text: string, count: int, token: string, order: string, more: seq<string>)
    requires count <= MAX_RESULTS
    ensures MediaListQuery(ListRequest(SEARCH_PREFIX + text, count, Some(token), [order] + more)) ==
            Some(SearchQuery(text, count, PAGE_TOKEN_KEY, token, order))
  {
    assert (SEARCH_PREFIX + text)[..|SEARCH_PREFIX|] == SEARCH_PREFIX;
    assert (SEARCH_PREFIX + text)[|SEARCH_PREFIX|..] == text;
  }

  /** Browser__Action__Type values; `OtherAction` is any other type. */
  datatype ActionType = Play | Add | SetFavorite | UnsetFavorite | OtherAction(code: int)

  /** The actions list of a media-list response; action ids index it. */
  const ACTIONS: seq<ActionType> := [Play, Add, SetFavorite, UnsetFavorite]
  const SET_FAV_ACTIONS: seq<nat> := [0, 1, 2]
  const UNSET_FAV_ACTIONS: seq<nat> := [0, 1, 3]

  /** The action types a list of action ids offers. */
  function Offered(ids: seq<nat>): (s: set<ActionType>)
    requires forall i :: 0 <= i < |ids| ==> ids[i] < |ACTIONS|
    ensures forall i :: 0 <= i < |ids| ==> ACTIONS[ids[i]] in s
    ensures forall a :: a in s ==> exists i :: 0 <= i < |ids| && ACTIONS[ids[i]] == a
  {
    set i | 0 <= i < |ids| :: ACTIONS[ids[i]]
  }

  /** A media item of the response. */
  datatype MediaItem = MediaItem(
    id: Option<string>,
    name: Option<string>,
    isMedia: bool,
    favorite: bool,
    actionIds: seq<nat>,
    title: Option<string>,
    cover: Option<string>)

  /** browser__response__media_item__init: an item with nothing set. */
  const EMPTY_ITEM: MediaItem := MediaItem(None, None, false, false, [], None, None)

  /** One iteration of the item loop of list_cb. An entry without `id` or
      `snippet` stays an empty item. `favorite` is the library's favourite
      flag for a video id; the cover is the asset id, set only when non-empty. */
  function ListItem(e: SearchEntry, favorite: Option<string> -> bool): (item: MediaItem)
    ensures e.id.None? || e.snippet.None? ==> item == EMPTY_ITEM
    ensures e.id.Some? && e.snippet.Some? ==>
              && item.isMedia
              && item.id == e.id.value.videoId
              && item.name == e.snippet.value.title && item.title == e.snippet.value.title
              && item.favorite == favorite(e.id.value.videoId)
              && (item.cover.Some? <==> GetCover(e.snippet.value).Some? && GetCover(e.snippet.value).value != "")
              && (item.cover.Some? ==> item.cover == GetCover(e.snippet.value))
    ensures forall i :: 0 <= i < |item.actionIds| ==> item.actionIds[i] < |ACTIONS|
  {
    match (e.id, e.snippet)
    case (Some(ref), Some(snip)) =>
      var fav := favorite(ref.videoId);
      var cover := GetCover(snip);
      MediaItem(ref.videoId, snip.title, true, fav,
        if fav then UNSET_FAV_ACTIONS else SET_FAV_ACTIONS,
        snip.title,
        if cover.Some? && cover.value != "" then cover else None)
    case _ => EMPTY_ITEM
  }

  /** A favourite item offers removal from favourites and a non-favourite
      offers adding; both offer play and add. */
  lemma FavoriteActions(e: SearchEntry, favorite: Option<string> -> bool)
    requires e.id.Some? && e.snippet.Some?
    ensures var item := ListItem(e, favorite);
            && Play in Offered(item.actionIds) && Add in Offered(item.actionIds)
            && (UnsetFavorite in Offered(item.actionIds) <==> item.favorite)
            && (SetFavorite in Offered(item.actionIds) <==> !item.favorite)
  {
    var item := ListItem(e, favorite);
    var s := Offered(item.actionIds);
    assert ACTIONS[item.actionIds[0]] == Play;
    assert ACTIONS[item.actionIds[1]] == Add;
    assert ACTIONS[item.actionIds[2]] in s;
  }

  /** The search reply: page tokens and the `items` array. */
  datatype ListReply = ListReply(prevPageToken: Option<string>, nextPageToken: Option<string>, items: seq<SearchEntry>)

  /** The media-list response. */
  datatype MediaList = MediaList(
    sort: string,
    prevToken: Option<string>,
    nextToken: Option<string>,
    count: nat,
    items: seq<MediaItem>)

  /** list_cb: no response when the HTTP request failed; otherwise one item
      per array element, in array order, under the order saved by the request. */
  function ListResponse(order: string, reply: Option<ListReply>, favorite: Option<string> -> bool): (r: Option<MediaList>)
    ensures r.Some? <==> reply.Some?
    ensures r.Some? ==> r.value.count == |reply.value.items| == |r.value.items|
    ensures r.Some? ==> forall i :: 0 <= i < |r.value.items| ==> r.value.items[i] == ListItem(reply.value.items[i], favorite)
    ensures r.Some? ==> r.value.sort == order && r.value.prevToken == reply.value.prevPageToken
                        && r.value.nextToken == reply.value.nextPageToken
  {
    match reply
    case None => None
    case Some(rep) =>
      var items := seq(|rep.items|, i requires 0 <= i < |rep.items| => ListItem(rep.items[i], favorite));
      Some(MediaList(order, rep.prevPageToken, rep.nextPageToken, |rep.items|, items))
  }

  /* ---------------------------------------------------------------------- */
  /* Actions                                                                  */
  /* ---------------------------------------------------------------------- */

  /** The fields of a DoAction request this browser reads. */
  datatype ActionRequest = ActionRequest(kind: ActionType, path: string)

  predicate Supported(t: ActionType) {
    t == Play || t == Add || t == SetFavorite || t == UnsetFavorite
  }

  /** melo_youtube_browser_do_action: None (answer false, no request) for an
      unsupported action type or a path that is not a search result;
      otherwise the video id sent to the videos endpoint. */
  function DoAction(r: ActionRequest): (id: Option<string>)
    ensures id.Some? <==> Supported(r.kind) && HasPrefix(r.path, SEARCH_PREFIX)
    ensures id.Some? ==> SEARCH_PREFIX + id.value == r.path
  {
    if !Supported(r.kind) then None
    else if !HasPrefix(r.path, SEARCH_PREFIX) then None
    else
      assert SEARCH_PREFIX + r.path[|SEARCH_PREFIX|..] == r.path;
      Some(r.path[|SEARCH_PREFIX|..])
  }

  /** An element of the videos reply's `items` array. */
  datatype VideoItem = VideoItem(id: Option<string>, snippet: Option<Snippet>)

  /** The tags action_cb builds from a snippet. */
  datatype ItemTags = ItemTags(title: Option<string>, cover: Option<string>)

  /** What action_cb asks of the playlist or the library. */
  datatype ActionEffect =
    | NoEffect
    | PlayMedia(url: string, name: Option<string>, tags: Option<ItemTags>)
    | AddMedia(url: string, name: Option<string>, tags: Option<ItemTags>)
    | MarkFavorite(path: string, media: Option<string>, name: Option<string>, tags: Option<ItemTags>)
    | UnmarkFavorite(path: string, media: Option<string>)

  /** strrchr split of action_cb: the text before the last '/' and the text
      after it (no media when there is no '/'). */
  function SplitLast(url: string): (r: (string, Option<string>))
    ensures r.1.Some? ==> r.0 + "/" + r.1.value == url
    ensures r.1.Some? ==> forall j :: 0 <= j < |r.1.value| ==> r.1.value[j] != '/'
    ensures r.1.None? ==> r.0 == url && forall j :: 0 <= j < |url| ==> url[j] != '/'
  {
    match LastIndex(url, '/')
    case None => (url, None)
    case Some(i) =>
      assert url[..i] + "/" + url[i + 1..] == url;
      (url[..i], Some(url[i + 1..]))
  }

  /** The watch URL of a video id without '/' is stored under the site path
      and a media name of "watch?v=" followed by the id. */
  lemma SplitWatchUrl(id: string)
    requires forall j :: 0 <= j < |id| ==> id[j] != '/'
    ensures SplitLast(ACTION_URL + id) == ("http://www.youtube.com", Some("watch?v=" + id))
  {
    var url := ACTION_URL + id;
    var k := |"http://www.youtube.com"|;
    assert url[k] == '/';
    assert forall j :: k < j < |url| ==> url[j] != '/';
    var i := LastIndex(url, '/');
    assert i == Some(k);
    assert url[..k] == "http://www.youtube.com";
    assert url[k + 1..] == "watch?v=" + id;
  }

  /** action_cb for the action type saved by DoAction: nothing unless the
      reply's first item has an id; then the watch URL, the name (the
      snippet's title, or the id when there is no snippet) and the tags go to
      the playlist, or to the library split at the last '/'. */
  function ActionReply(reply: Option<seq<VideoItem>>, kind: ActionType): (e: ActionEffect)
    ensures reply.None? || |reply.value| == 0 || reply.value[0].id.None? ==> e == NoEffect
    ensures e.PlayMedia? ==> kind == Play
    ensures e.AddMedia? ==> kind == Add
    ensures e.MarkFavorite? ==> kind == SetFavorite
    ensures e.UnmarkFavorite? ==> kind == UnsetFavorite
    ensures e.PlayMedia? || e.AddMedia? ==> e.url == ACTION_URL + reply.value[0].id.value
    ensures e.MarkFavorite? || e.UnmarkFavorite? ==>
              e.media.Some? && (e.path, e.media) == SplitLast(ACTION_URL + reply.value[0].id.value)
    ensures (e.PlayMedia? || e.AddMedia? || e.MarkFavorite?) && reply.value[0].snippet.None? ==>
              e.name == reply.value[0].id && e.tags.None?
    ensures (e.PlayMedia? || e.AddMedia? || e.MarkFavorite?) && reply.value[0].snippet.Some? ==>
              e.name == reply.value[0].snippet.value.title
    ensures (e.PlayMedia? || e.AddMedia? || e.MarkFavorite?) && reply.value[0].snippet.Some? ==>
              e.tags == Some(ItemTags(reply.value[0].snippet.value.title, GetCover(reply.value[0].snippet.value)))
    ensures reply.Some? && |reply.value| > 0 && reply.value[0].id.Some? && Supported(kind) ==> e != NoEffect
  {
    if reply.None? || |reply.value| == 0 then NoEffect
    else
      var item := reply.value[0];
      match item.id
      case None => NoEffect
      case Some(id) =>
        var url := ACTION_URL + id;
        var name := if item.snippet.Some? then item.snippet.value.title else Some(id);
        var tags := if item.snippet.Some? then Some(ItemTags(item.snippet.value.title, GetCover(item.snippet.value))) else None;
        if kind == Play then PlayMedia(url, name, tags)
        else if kind == Add then AddMedia(url, name, tags)
        else
          var split := SplitLast(url);
          assert url[|"http://www.youtube.com"|] == '/';
          if kind == UnsetFavorite then UnmarkFavorite(split.0, split.1)
          else if kind == SetFavorite then MarkFavorite(split.0, split.1, name, tags)
          else NoEffect
  }

  /** For a video id without '/', setting or unsetting the favourite files the
      video under the site path with the media name "watch?v=" + id. */
  lemma FavoriteFilesWatchPage(item: VideoItem, kind: ActionType)
    requires item.id.Some? && forall j :: 0 <= j < |item.id.value| ==> item.id.value[j] != '/'
    requires kind == SetFavorite || kind == UnsetFavorite
    ensures var e := ActionReply(Some([item]), kind);
            (e.MarkFavorite? || e.UnmarkFavorite?)
            && e.path == "http://www.youtube.com" && e.media == Some("watch?v=" + item.id.value)
  {
    SplitWatchUrl(item.id.value);
  }
}
